=== FILE: README.md ===
# jeni core, modelled in Dafny

jeni is a small dependency-injection library. Its `BaseProvider` class lets
code annotate a callable with notes such as `'db'` or `'config:port'`. A
provider instance then resolves each note by calling an accessor: `'db'` calls
`get_db()` and `'config:port'` calls `get_config(name='port')`.

Providers can extend other providers. A method the provider lacks is then
taken from the first extended provider that has it. Classes can also
implement the annotations of other provider classes. `close` calls the
methods named in `before_close`, then every `close_*` method, each at most
once.

`DecoratingInjector` adds decoration on top of this. It keeps a per-class
registry of decorators for a `(basenote, name)` key. When a value is
provided, every decorator registered on the classes of the injector's MRO
runs, base classes first. A decorate-mode decorator's return value replaces
the value. A configure-mode decorator is called with the value and its
return value is discarded.

The model has seven modules:

- `Common`: `Option`, `Result`, the Python exceptions involved, class identities.
- `Notes`: `parse_note`, `format_accessor_name` and `is_close_method`, with
  the regular expressions spelled out as functions on strings.
- `Providers`: provider instances as data in a heap, `__getattr__` with the
  `extends` fallback, `extend`/`unextend`, and `resolve_note`/`resolve_notes`.
- `Annotations`: the class-level registries, `annotate`, `unannotate`,
  `implement` and `lookup`.
- `Closing`: `close`, as a method with loops whose invariants carry its
  contract.
- `Decoration`: `decorate`, `configure`, `decorators_iter` and
  `decorators_apply`. The base-note type of the injector is a type parameter.
- `Injection`: `_handle_provider`, plus scenarios from the decoration tests
  that use `BaseProvider`'s note parser and string values.

Python's unbounded recursion becomes a `fuel` argument. A cyclic `extends`
chain or a cyclic `implement` runs out of fuel, and the model returns
`RecursionError` there, as Python does once its recursion limit is hit.

Some details of the code are easy to misread; the model follows the code:

- The note pattern `([^:]*):?(.*)` is applied with `re.match`. Its second
  group `.*` does not match a newline, so the name ends at the first newline
  after the colon (`ParseNoteStopsNameAtNewline`).
- A note with an empty object part formats its accessor as `get_None`,
  because `'get_{}'.format(None)` prints `None`.
- The `unextend` docstring (jeni.py:250) calls it the inverse of `extend`. It uses `list.remove`,
  which drops the earliest occurrence. So the round trip restores the list
  only when the providers were not already extended. Otherwise the order
  changes (`UnextendRemovesEarliestEntry`).
- `_handle_provider` re-raises `UnsetError(msg, note=note)`. The
  `UnsetError` in jeni.py subclasses `KeyError` and declares no `note`
  keyword, so this relies on a later `jeni` module. That module also defines
  `Injector`, which jeni.py does not have. The model follows the decoration
  code's intent: the re-raised error carries the note.

## Model

| member | source | states |
|---|---|---|
| Notes.ParseNote | jeni.py:218-221 | Each group is `None` or non-empty; the name holds no newline; a name needs a colon in the note |
| Notes.ParseBaseIsLongestColonFreePrefix | jeni.py:218-221 | The object part is the longest colon-free prefix of the note |
| Notes.ParseNameFollowsFirstColon | jeni.py:218-221 | No colon means no name; otherwise the name is the text after the first colon, up to the first newline |
| Notes.ParseNoteRoundTrip | jeni.py:218-221 | Parsing `b + ":" + n` gives back `b` and `n` when `b` has no colon and `n` no newline |
| Notes.ParseNoteWithoutColon | jeni.py:218-221 | A non-empty note without a colon is all object name, with no name |
| Notes.ParseNoteMissingBase | jeni.py:218-225 | An empty note, or one starting with a colon, has no object part; its accessor is `get_None` |
| Notes.ParseNoteStopsNameAtNewline | jeni.py:44 | `'a:b\nc'` parses to object `a`, name `b` |
| Notes.IsCloseMethod | jeni.py:227-229 | A name is a close method exactly when it starts with `close_` (the pattern `^close_.*`); anything may follow, newlines included |
| Notes.AccessorName | jeni.py:223-225 | The accessor name is `get_` followed by the object name, or by `None` when there is none |
| Notes.AccessorNeverCloseMethod | jeni.py:223-229 | No accessor name `get_...` is a close method, whatever the note |
| Providers.GetAttr | jeni.py:256-275 | Own attributes win; `extends` never comes from an extension; without extensions a missing name is an `AttributeError`; the fallback to extensions is stated by `GetAttrFromExtensions` |
| Providers.GetAttrFromExtensions | jeni.py:256-275 | A name other than `extends` that the provider lacks is an `AttributeError` without extensions; otherwise it is looked up on the extensions, or is a `RecursionError` when the recursion bound is spent |
| Providers.FromExtensions | jeni.py:266-275 | The answer is a method (bound method or function) found on one of the extended providers; when every one lacks the name or has something else, even another callable, `AttributeError` |
| Providers.FromExtensionsFirstDecides | jeni.py:267-273 | The first extended provider whose lookup is not skipped decides: its method is the answer, or its error other than `AttributeError` ends the loop |
| Providers.FromExtensionsAppend | jeni.py:266-273 | Extensions are tried in order: later providers matter only when the earlier ones have no method of that name and raise nothing but `AttributeError` |
| Providers.Callable | jeni.py:155-156 | `getattr` then a call: succeeds exactly on a callable attribute (any callable of the provider's own, a method from an extension); a non-callable is a `TypeError`; lookup errors propagate |
| Providers.Extend | jeni.py:245-247 | The extension list becomes the old list followed by the new providers; attributes are unchanged |
| Providers.RemoveFirst | jeni.py:253 | `list.remove` drops one occurrence: one element shorter, multiset minus that element |
| Providers.RemoveFirstDropsFirstOccurrence | jeni.py:253 | `list.remove` drops the first occurrence and keeps every other element in order |
| Providers.RemoveEachConcat | jeni.py:252-253 | Removing a concatenation removes the first part, then, unless that failed, the second part from what is left |
| Providers.RemoveEachOneMore | jeni.py:252-253 | One more provider is one more `list.remove` on the list the earlier ones left; a failure earlier or now stops with the list as it stands |
| Providers.RemoveEach | jeni.py:251-253 | Fails exactly when a provider is not available to remove; otherwise removes the multiset of providers |
| Providers.Unextend | jeni.py:249-254 | Succeeds exactly when every provider is extended (with multiplicity), leaving the multiset difference; otherwise `ValueError` |
| Providers.UnextendOneMore | jeni.py:249-254 | Providers are removed in argument order, each from the list the earlier ones left; a missing one raises `ValueError`, keeps an existing list as the earlier removals left it, and ends the walk |
| Providers.UnextendUndoesExtend | jeni.py:231-254 | `unextend` after `extend` of providers not yet extended restores the extension list |
| Providers.UnextendRemovesEarliestEntry | jeni.py:249-254 | Extending an already-extended provider and unextending it reorders the list: `[1, 2]` becomes `[2, 1]` |
| Providers.AccessorCallShape | jeni.py:209-216 | The accessor is named from the object part; it gets `name=` exactly when the note has a name |
| Providers.AccessorCallOfComposedNote | jeni.py:80-86 | `'b:n'` calls `get_b(name='n')`; `'b'` calls `get_b()` |
| Providers.ResolveNote | jeni.py:209-216 | Resolution fails exactly when the accessor is not callable, with the error of looking it up or calling it; otherwise it is the accessor's result for that call |
| Providers.ResolveAll | jeni.py:200-201 | All notes resolve, or the error of the first failing note propagates; results are per note, in order |
| Providers.ResolveNotes | jeni.py:198-207 | On success there is one positional value per note, the value its note resolves to, and at most one keyword value per keyword note |
| Providers.KeepProvided | jeni.py:206 | Keeps exactly the keyword values that are not `UNSET`, each under its own keyword; distinct keywords stay distinct, so no keyword occurs twice, as in a `dict` |
| Providers.ResolveNotesPositionalUnset | jeni.py:202-205 | An `UNSET` positional value raises `UnsetError` naming the first such note, whatever the keywords resolve to |
| Providers.ResolveNotesSucceeds | jeni.py:198-207 | Without positional `UNSET`, the arguments are the accessor results in note order, plus exactly the set keyword values, each keyword once when the keyword notes have distinct keywords |
| Providers.ResolveNotesPropagatesLookupErrors | jeni.py:200-201 | A positional note's lookup error comes first, then a keyword note's; any error that is not `UnsetError` comes from some note |
| Annotations.Annotate | jeni.py:100-106 | Stores the annotation under the callable on the class's own table, returns the callable, and changes nothing else |
| Annotations.Unannotate | jeni.py:108-111 | `KeyError` exactly when the class has no entry for the callable; otherwise removes only that entry |
| Annotations.UnannotateUndoesAnnotate | jeni.py:108-111 | `unannotate` undoes `annotate` of a callable the class had not annotated |
| Annotations.Implement | jeni.py:167-172 | Appends the classes to the class's implements list, creating it if needed; other classes unchanged |
| Annotations.FindInMro | jeni.py:177-190 | The entry of the first class in MRO order holding the callable or its `__func__`; none exactly when no class holds it |
| Annotations.LookupImplemented | jeni.py:191-195 | Exactly the lookup of the first implemented class, in registration order, whose lookup is not a `LookupError`; `LookupError` when every one raises it |
| Annotations.Lookup | jeni.py:174-196 | An annotation found along the MRO is the answer; a class implementing nothing succeeds exactly when its MRO holds the callable; any other success needs implemented classes and recursion left |
| Annotations.LookupPrefersMro | jeni.py:174-190 | The first MRO class holding the callable decides `lookup`, whatever implemented classes hold |
| Annotations.LookupFallsBackToImplemented | jeni.py:191-196 | Without an MRO entry, `lookup` is exactly the lookup of the first implemented class, in registration order, not raising `LookupError`, every earlier one raising it; `LookupError` when there is none or no class implemented; `RecursionError` once the bound is spent |
| Annotations.ImplementThenLookup | jeni.py:167-196 | After `implement(o)` on a class that implemented nothing and whose MRO lacks the callable, its `lookup` is `o`'s `lookup` |
| Annotations.AnnotateThenLookup | jeni.py:100-190 | After `annotate` on a class, `lookup` on it returns that annotation |
| Annotations.AnnotateOnSubclassLeavesBase | jeni.py:75-77 | Annotating on a class outside a base's MRO does not change what the base finds |
| Closing.Dedup | jeni.py:152-157 | First occurrences only: no duplicates, same members |
| Closing.CloseNames | jeni.py:158-165 | Exactly the `close_*` names of the listing that are not in `before_close` |
| Closing.CloseOrderCallsEachOnce | jeni.py:136-139 | The close order has no duplicates and holds exactly the `before_close` names and the listed `close_*` names |
| Closing.CloseSkipsAccessors | jeni.py:151-165 | `close` calls an accessor only when `before_close` names it |
| Closing.CallBeforeClose | jeni.py:152-157 | Calls each `before_close` name once, in order, or stops at the first one that is not callable |
| Closing.VisitBeforeClose | jeni.py:153-157 | One turn of the first loop: a name already called is skipped, a new one is called and appended, or the walk stops at it with its lookup error |
| Closing.CallCloseMethods | jeni.py:158-165 | Calls each listed close method not yet called, in listing order, or stops at the first that is not callable |
| Closing.Close | jeni.py:151-165 | Every name called was callable and called once; the calls follow the close order and stop only at a name whose lookup fails with that error |
| Decoration.OtherKeywords | jeni_decoration.py:25-29 | The keyword names other than `mode` |
| Decoration.Append | jeni_decoration.py:40-42 | Adds the entry at the end of the class's own list for the key; every other list is unchanged |
| Decoration.DecorateOn | jeni_decoration.py:15-43 | Checks in source order (extra keyword, missing decorator, mode, note, named configure): a note error propagates, a named note in configure mode is a `ValueError`, any other note registers; on success only the key's own list grows by the entry |
| Decoration.ConfigureOn | jeni_decoration.py:70-73 | Without a decorator, a registrar curried in configure mode; a note error propagates; a named note is a `ValueError`; an unnamed one appends a configure-mode entry to the key's own list and changes no other list |
| Decoration.ModeKeywordAlone | jeni_decoration.py:25 | A lone `mode=` keyword gives that mode and no unexpected keyword |
| Decoration.ConfigureRejectsNamedNote | jeni_decoration.py:37-39 | `configure` on a named note is a `ValueError` |
| Decoration.CurriedRegistrarAgrees | jeni_decoration.py:30-31 | The registrar returned without a decorator, called with one, behaves like `decorate` given it directly |
| Decoration.DecoratorsIter | jeni_decoration.py:45-59 | An empty MRO yields nothing; a one-class MRO yields exactly that class's own entries for the key |
| Decoration.DecoratorsIterSplit | jeni_decoration.py:45-59 | Iteration over a split MRO yields the base part's entries first |
| Decoration.DecoratorsIterMembers | jeni_decoration.py:49-55 | An entry is yielded exactly when some MRO class registered it under that key |
| Decoration.DecoratorsIterUnaffected | jeni_decoration.py:50-53 | Registering on a class outside the MRO, or under another key, changes nothing yielded |
| Decoration.DecoratorsIterRegisterOnMostDerived | jeni_decoration.py:47-49 | Registering on the most-derived class appends to the end of the iteration |
| Decoration.DecoratorsApply | jeni_decoration.py:61-68 | One call per entry; the first entry's decorator is called with the value given |
| Decoration.DecoratorsApplyCallsEach | jeni_decoration.py:61-68 | Each entry's decorator is called once, in order, the first with the value given |
| Decoration.DecoratorsApplySplit | jeni_decoration.py:61-68 | Applying a concatenation applies the second part to the first part's result |
| Decoration.ConfigureNeverAltersValue | jeni_decoration.py:64-67 | The result equals that of the decorate-mode entries alone |
| Decoration.ConfigureOnlyKeepsValue | jeni_decoration.py:66-67 | Configure-mode entries alone keep the value, and each sees it |
| Decoration.DecorateEntriesCompose | jeni_decoration.py:64-65 | Two decorate-mode entries compose left to right |
| Injection.WithNote | jeni_decoration.py:103-107 | The message is the original one, `': '`, then the note's repr; or only the repr when the original is empty |
| Injection.HandleProvider | jeni_decoration.py:75-108 | Materialises once; materialising errors propagate; with the provider at hand, a `get` binding error propagates, a value from `get` is returned decorated, an `UnsetError` is re-raised with the note and any other `get` error propagates unchanged; only unnamed values are cached |
| Injection.MaterializedOnce | jeni_decoration.py:77-87 | After one call materialised the provider, later calls reuse it, with any factory |
| Injection.NamedGetNeverCaches | jeni_decoration.py:91-94 | A named get leaves the value cache unchanged |
| Injection.OtherErrorsPropagate | jeni_decoration.py:77-100 | Whether the provider was cached or is materialised now, a materialising error, a `get` binding error and a `get` error other than `UnsetError` propagate unchanged |
| Injection.ConfigureNamedGenieRejected | test_jeni_decoration.py:138-141 | `configure('genie:foo', ...)` is rejected |
| Injection.DecorateTwiceRegistersInOrder | test_jeni_decoration.py:53-58 | Two `decorate('it', ...)` calls register both, in order |
| Injection.ReverseThenDouble | test_jeni_decoration.py:67-82 | Reverse, configure, double on `'abc'` gives `'cbacba'`; the configurer sees `'cba'` |
| Injection.NestedRegistryByDecorate | test_jeni_decoration.py:104-109 | Decorating on the base and then the subclass gives the expected registry |
| Injection.NestedIteration | test_jeni_decoration.py:104-124 | The base injector yields the base decorator; the subclass injector yields it, then its own |
| Injection.NestedDecoration | test_jeni_decoration.py:111-119 | The base injector gets `'cba'`, the subclass injector `'cbacba'` |
| Injection.NoEntriesIter | jeni_decoration.py:49-53 | With no class registering under the key, nothing is yielded |
| Injection.DecorateNamedRegisters | test_jeni_decoration.py:126-131 | `decorate('genie:foo', ...)` registers under the named key |
| Injection.DecorateNamedOnly | test_jeni_decoration.py:133-136 | Only `'genie:foo'` is decorated (`'foofoo'`); other names and the unnamed note are not |

## Left out

- `apply` and `partial` (jeni.py:113-123): `functools.partial` and calling the annotated callable are outside the model. Their steps, `lookup` then `resolve_notes`, are modelled.
- `__enter__` and `__exit__` (jeni.py:277-281): they only return `self` and call `close`.
- The `jeni.Injector` base class that `DecoratingInjector` extends is not part of this model. `parse_note`, `has_annotations`, `prepare_callable`, `apply_regardless` and `partial_regardless` become the `parse` argument and the fields of `Factory`, which give their outcomes as data.
- Annotated decorators (jeni_decoration.py:56-57): `self.partial(fn)` belongs to that unshown base. Every decorator is modelled as called with the value alone.
- What accessors, decorators and close methods compute: they are given as functions or identities. An exception raised inside one of them is not modelled.
- Providers.GetAttr: Python's recursion limit becomes a `fuel` bound, so a deep but acyclic extension chain that exceeds the fuel gives `RecursionError` in the model even where Python would succeed.
- Annotations.LookupImplemented: the same `fuel` bound stands for the recursion limit of nested `lookup` calls through `implement`.
- Closing.Close: `dir(self)` is a parameter required to be a sorted listing without duplicates of the provider's attributes. How Python gathers class attributes into it is not modelled.
- Injection.HandleProvider: the re-raised message is built from the original `UnsetError`'s argument. Python's `str()` of a `KeyError` subclass quotes that argument (jeni_decoration.py:102), and the model does not add those quotes. So for an empty original message the model gives only the note's repr, where Python's quoted `''` is non-empty and comes first.
- Decoration.DecorateOn: the `TypeError` and `ValueError` messages keep the offending keyword or a fixed text, not the full formatted message with `repr`. Of several unexpected keywords, the model reports the first in the order given, where Python uses the keyword dictionary's order.
- Providers.ResolveNotes: the keyword order of `kwargs` follows the order the keyword notes are given, standing in for dictionary order. Python's `**keyword_notes` cannot repeat a keyword; the model's sequence can, so the clauses that no keyword occurs twice take distinct keywords as their premise.
- In-place mutation of values: values are immutable and decorators are functions, so a configure-mode decorator that mutates the value it receives (jeni_decoration.py:66-67) is not modelled; only the discarding of its return value is. The same holds for accessors that mutate shared state.
- The customisation hooks are fixed at their defaults: `accessor_pattern` is `get_{}`, `re_note` and `re_close_method` are the patterns of jeni.py:43-44, and `format_accessor_name`, `is_close_method` and `parse_note` are not overridden in subclasses, although their docstrings call them configurable (jeni.py:89-91, 132-133).
- Python values are type parameters. Notes are strings. Passing a non-string note, which would make the regular expression raise, is not modelled.
- Aliasing: provider objects live in an explicit heap, and `extend` and `unextend` return the changed object instead of mutating a list that other code may share.
- The `Injector.get` fast path that serves values from `values` before `_handle_provider` runs belongs to the unshown base.
- setup.py and the Python 2/3 compatibility shims.

=== FILE: annotations.dfy ===
/** The class-level registries of `BaseProvider`: `class_annotation`
    (`annotate`, `unannotate`, `lookup`) and `class_implements`
    (`implement`). Python's class objects and MRO become class identities and
    an explicit MRO function. */
module Annotations {
  import opened Common

  /** A callable as a registry key: a plain function, or a bound method whose
      `__func__` is a plain function. */
  datatype Fn = Function(id: nat) | BoundMethod(func: nat, receiver: nat)

  /** `fn.__func__` when the callable has one. */
  function FuncOf(fn: Fn): Option<Fn> {
    match fn
    case Function(_) => None
    case BoundMethod(f, _) => Some(Function(f))
  }

  /** The argument of `annotate`: positional notes and keyword notes. */
  datatype Annotation = Annotation(notes: seq<string>, keywordNotes: seq<(string, string)>)

  /** `class_annotation`: for each class that ever called `annotate`, its own
      callable-to-annotation table. */
  type AnnotationRegistry = map<ClassId, map<Fn, Annotation>>

  /** `class_implements`: for each class, the classes whose annotations it
      implements, in registration order. */
  type ImplementsRegistry = map<ClassId, seq<ClassId>>

  /** `annotate(*notes, **keyword_notes)(fn)`: creates the class's table on
      first use, stores the annotation under `fn` (replacing an earlier one)
      and hands `fn` back unchanged. */
  function Annotate(reg: AnnotationRegistry, cls: ClassId, fn: Fn, a: Annotation): (r: (AnnotationRegistry, Fn))
    ensures r.1 == fn
    ensures cls in r.0 && fn in r.0[cls] && r.0[cls][fn] == a
    ensures forall g | g in r.0[cls] && g != fn :: cls in reg && g in reg[cls] && r.0[cls][g] == reg[cls][g]
    ensures cls in reg ==> forall g | g in reg[cls] :: g in r.0[cls]
    ensures forall c | c != cls :: (c in r.0 <==> c in reg) && (c in reg ==> r.0[c] == reg[c])
  {
    var own := if cls in reg then reg[cls] else map[];
    (reg[cls := own[fn := a]], fn)
  }

  /** `unannotate(fn)`: `pop` from the class's own table, a `KeyError` when
      the class never annotated or `fn` is not in its table. */
  function Unannotate(reg: AnnotationRegistry, cls: ClassId, fn: Fn): (r: Result<AnnotationRegistry>)
    ensures r.Err? <==> cls !in reg || fn !in reg[cls]
    ensures r.Err? ==> r.error == KeyError
    ensures r.Ok? ==> cls in r.value && r.value[cls].Keys == reg[cls].Keys - {fn}
    ensures r.Ok? ==> forall g | g in r.value[cls] :: r.value[cls][g] == reg[cls][g]
    ensures r.Ok? ==> forall c | c != cls :: (c in r.value <==> c in reg) && (c in reg ==> r.value[c] == reg[c])
  {
    if cls !in reg || fn !in reg[cls] then Err(KeyError)
    else Ok(reg[cls := reg[cls] - {fn}])
  }

  /** `unannotate` is the inverse of `annotate` for a callable the class had
      not annotated; a class that had no table keeps an empty one. */
  lemma UnannotateUndoesAnnotate(reg: AnnotationRegistry, cls: ClassId, fn: Fn, a: Annotation)
    requires cls !in reg || fn !in reg[cls]
    ensures Unannotate(Annotate(reg, cls, fn, a).0, cls, fn) ==
      Ok(if cls in reg then reg else reg[cls := map[]])
  {
    var r := Unannotate(Annotate(reg, cls, fn, a).0, cls, fn).value;
    var want := if cls in reg then reg else reg[cls := map[]];
    assert r[cls] == want[cls];
    assert r == want;
  }

  /** `implement(*provider_classes)`: appends to the class's list, creating it
      on first use. */
  function Implement(impls: ImplementsRegistry, cls: ClassId, others: seq<ClassId>): (r: ImplementsRegistry)
    ensures cls in r && r[cls] == (if cls in impls then impls[cls] else []) + others
    ensures forall c | c != cls :: (c in r <==> c in impls) && (c in impls ==> r[c] == impls[c])
  {
    impls[cls := (if cls in impls then impls[cls] else []) + others]
  }

  /** The class's own table holds `fn`, or the function of the bound method
      `fn`. Classes without a table (mixins, classes that never annotated)
      hold nothing. */
  predicate Holds(reg: AnnotationRegistry, c: ClassId, fn: Fn) {
    c in reg && (fn in reg[c] || (FuncOf(fn).Some? && FuncOf(fn).value in reg[c]))
  }

  /** The entry a class holds for `fn`, the callable itself taking precedence
      over its `__func__`. */
  function EntryFor(reg: AnnotationRegistry, c: ClassId, fn: Fn): Annotation
    requires Holds(reg, c, fn)
  {
    if fn in reg[c] then reg[c][fn] else reg[c][FuncOf(fn).value]
  }

  /** The first loop of `lookup`: the entry of the first class in MRO order
      that holds `fn`. */
  function FindInMro(reg: AnnotationRegistry, mro: seq<ClassId>, fn: Fn): (r: Option<Annotation>)
    ensures r.None? <==> forall i | 0 <= i < |mro| :: !Holds(reg, mro[i], fn)
    ensures r.Some? ==> exists i | 0 <= i < |mro| ::
      && Holds(reg, mro[i], fn)
      && (forall j | 0 <= j < i :: !Holds(reg, mro[j], fn))
      && r.value == EntryFor(reg, mro[i], fn)
  {
    if mro == [] then None
    else if Holds(reg, mro[0], fn) then Some(EntryFor(reg, mro[0], fn))
    else
      var r := FindInMro(reg, mro[1..], fn);
      assert forall i | 1 <= i < |mro| :: mro[i] == mro[1..][i - 1];
      r
  }

  /** The class hierarchy and both registries. `mro(c)` is `c.mro()`. */
  datatype Classes = Classes(mro: ClassId -> seq<ClassId>, annotations: AnnotationRegistry, implements: ImplementsRegistry)
  {
    function ImplementedBy(c: ClassId): seq<ClassId> {
      if c in implements then implements[c] else []
    }
  }

  /** `lookup(fn)` on class `cls`: the MRO first, then each implemented class's
      own `lookup`, skipping those that raise `LookupError`. `fuel` bounds the
      nesting of implemented lookups; running out models Python's recursion
      limit, reached when `implement` is cyclic. */
  function Lookup(cs: Classes, cls: ClassId, fn: Fn, fuel: nat): (r: Result<Annotation>)
    ensures FindInMro(cs.annotations, cs.mro(cls), fn).Some? ==> r == Ok(FindInMro(cs.annotations, cs.mro(cls), fn).value)
    ensures cs.ImplementedBy(cls) == [] ==> (r.Ok? <==> FindInMro(cs.annotations, cs.mro(cls), fn).Some?)
    ensures r.Ok? && FindInMro(cs.annotations, cs.mro(cls), fn).None? ==> fuel > 0 && cs.ImplementedBy(cls) != []
    decreases fuel, 0, 0
  {
    match FindInMro(cs.annotations, cs.mro(cls), fn)
    case Some(a) => Ok(a)
    case None =>
      var others := cs.ImplementedBy(cls);
      if others == [] then Err(LookupError)
      else if fuel == 0 then Err(RecursionError)
      else LookupImplemented(cs, others, fn, fuel - 1)
  }

  /** Index of the first implemented class whose `lookup` does not raise
      `LookupError`, or the number of classes when every one does. */
  function FirstDeciding(cs: Classes, others: seq<ClassId>, fn: Fn, fuel: nat): (k: nat)
    ensures k <= |others|
    ensures forall j | 0 <= j < k :: Lookup(cs, others[j], fn, fuel) == Err(LookupError)
    ensures k < |others| ==> Lookup(cs, others[k], fn, fuel) != Err(LookupError)
    decreases fuel, 1, |others|, 0
  {
    if others == [] then 0
    else if Lookup(cs, others[0], fn, fuel) != Err(LookupError) then 0
    else 1 + FirstDeciding(cs, others[1..], fn, fuel)
  }

  /** The second loop of `lookup`: `LookupError` from an implemented class
      moves on to the next one; any other outcome ends the search. */
  function LookupImplemented(cs: Classes, others: seq<ClassId>, fn: Fn, fuel: nat): (r: Result<Annotation>)
    ensures var k := FirstDeciding(cs, others, fn, fuel);
      r == if k < |others| then Lookup(cs, others[k], fn, fuel) else Err(LookupError)
    decreases fuel, 1, |others|, 1
  {
    if others == [] then Err(LookupError)
    else
      var r0 := Lookup(cs, others[0], fn, fuel);
      if r0 == Err(LookupError) then
        assert forall i | 1 <= i < |others| :: others[i] == others[1..][i - 1];
        LookupImplemented(cs, others[1..], fn, fuel)
      else r0
  }

  /** The most-derived class in the MRO that annotated `fn` wins, whatever
      its bases or implemented classes hold. */
  lemma LookupPrefersMro(cs: Classes, cls: ClassId, fn: Fn, fuel: nat, i: nat)
    requires i < |cs.mro(cls)| && Holds(cs.annotations, cs.mro(cls)[i], fn)
    requires forall j | 0 <= j < i :: !Holds(cs.annotations, cs.mro(cls)[j], fn)
    ensures Lookup(cs, cls, fn, fuel) == Ok(EntryFor(cs.annotations, cs.mro(cls)[i], fn))
  {
    var mro := cs.mro(cls);
    var r := FindInMro(cs.annotations, mro, fn);
    assert r.Some?;
    var k :| 0 <= k < |mro| && Holds(cs.annotations, mro[k], fn)
      && (forall j | 0 <= j < k :: !Holds(cs.annotations, mro[j], fn))
      && r.value == EntryFor(cs.annotations, mro[k], fn);
    assert k == i;
  }

  /** With nothing in the MRO, the answer is that of the first implemented
      class whose own `lookup` does not raise `LookupError`; when every
      implemented class raises it, so does `lookup`. */
  lemma LookupFallsBackToImplemented(cs: Classes, cls: ClassId, fn: Fn, fuel: nat)
    requires forall i | 0 <= i < |cs.mro(cls)| :: !Holds(cs.annotations, cs.mro(cls)[i], fn)
    ensures cs.ImplementedBy(cls) == [] ==> Lookup(cs, cls, fn, fuel) == Err(LookupError)
    ensures fuel == 0 && cs.ImplementedBy(cls) != [] ==> Lookup(cs, cls, fn, fuel) == Err(RecursionError)
    ensures fuel > 0 && cs.ImplementedBy(cls) != [] ==>
      var others := cs.ImplementedBy(cls);
      var k := FirstDeciding(cs, others, fn, fuel - 1);
      && (forall j | 0 <= j < k :: Lookup(cs, others[j], fn, fuel - 1) == Err(LookupError))
      && Lookup(cs, cls, fn, fuel) == if k < |others| then Lookup(cs, others[k], fn, fuel - 1) else Err(LookupError)
    ensures fuel > 0 && (forall i | 0 <= i < |cs.ImplementedBy(cls)| :: Lookup(cs, cs.ImplementedBy(cls)[i], fn, fuel - 1) == Err(LookupError)) ==>
      Lookup(cs, cls, fn, fuel) == Err(LookupError)
  {
  }

  /** After `implement(o)` on a class that implemented nothing and whose MRO
      does not know `fn`, `lookup` on the class is `o`'s own `lookup`. */
  lemma ImplementThenLookup(cs: Classes, cls: ClassId, o: ClassId, fn: Fn, fuel: nat)
    requires cls !in cs.implements && fuel > 0
    requires forall i | 0 <= i < |cs.mro(cls)| :: !Holds(cs.annotations, cs.mro(cls)[i], fn)
    ensures var cs' := cs.(implements := Implement(cs.implements, cls, [o]));
      Lookup(cs', cls, fn, fuel) == Lookup(cs', o, fn, fuel - 1)
  {
    var cs' := cs.(implements := Implement(cs.implements, cls, [o]));
    assert cs'.ImplementedBy(cls) == [o];
    assert [o][1..] == [];
  }

  /** After `annotate` on the class itself (first in its MRO), `lookup` on it
      returns that annotation. */
  lemma AnnotateThenLookup(cs: Classes, cls: ClassId, fn: Fn, a: Annotation, fuel: nat)
    requires |cs.mro(cls)| > 0 && cs.mro(cls)[0] == cls
    ensures Lookup(cs.(annotations := Annotate(cs.annotations, cls, fn, a).0), cls, fn, fuel) == Ok(a)
  {
    var cs' := cs.(annotations := Annotate(cs.annotations, cls, fn, a).0);
    LookupPrefersMro(cs', cls, fn, fuel, 0);
  }

  /** Annotating on a subclass never changes what a base class finds when the
      subclass is not in the base's MRO. */
  lemma AnnotateOnSubclassLeavesBase(cs: Classes, sub: ClassId, base: ClassId, fn: Fn, a: Annotation)
    requires sub !in cs.mro(base)
    ensures FindInMro(Annotate(cs.annotations, sub, fn, a).0, cs.mro(base), fn) == FindInMro(cs.annotations, cs.mro(base), fn)
  {
    var reg' := Annotate(cs.annotations, sub, fn, a).0;
    FindInMroFrame(cs.annotations, reg', cs.mro(base), fn, sub);
  }

  lemma {:induction false} FindInMroFrame(reg: AnnotationRegistry, reg': AnnotationRegistry, mro: seq<ClassId>, fn: Fn, changed: ClassId)
    requires changed !in mro
    requires forall c | c != changed :: (c in reg' <==> c in reg) && (c in reg ==> reg'[c] == reg[c])
    ensures FindInMro(reg', mro, fn) == FindInMro(reg, mro, fn)
    decreases |mro|
  {
    if mro != [] {
      assert mro[0] != changed;
      FindInMroFrame(reg, reg', mro[1..], fn, changed);
    }
  }
}

=== FILE: closing.dfy ===
/** `BaseProvider.close`: the methods named in `before_close`, in list order,
    then every `close_*` attribute of the provider in `dir` order, each name
    called at most once. */
module Closing {
  import opened Common
  import opened Notes
  import opened Providers

  /** The first occurrence of each name, in list order. */
  function Dedup(xs: seq<string>): (r: seq<string>)
    ensures NoDuplicates(r)
    ensures forall x :: x in r <==> x in xs
  {
    if xs == [] then []
    else
      var d := Dedup(xs[..|xs| - 1]);
      var x := xs[|xs| - 1];
      assert xs == xs[..|xs| - 1] + [x];
      if x in d then d else d + [x]
  }

  /** The `close_*` names of a `dir` listing, in listing order, leaving out
      those already called through `before_close`. */
  function CloseNames(dir: seq<string>, beforeClose: seq<string>): (r: seq<string>)
    ensures forall x :: x in r <==> x in dir && IsCloseMethod(x) && x !in beforeClose
  {
    if dir == [] then []
    else
      var x := dir[|dir| - 1];
      assert dir == dir[..|dir| - 1] + [x];
      CloseNames(dir[..|dir| - 1], beforeClose) + (if IsCloseMethod(x) && x !in beforeClose then [x] else [])
  }

  /** The order in which `close` calls methods when none of them fails. */
  function CloseOrder(beforeClose: seq<string>, dir: seq<string>): seq<string> {
    Dedup(beforeClose) + CloseNames(dir, beforeClose)
  }

  /** Lexicographic order on code points, as Python sorts strings. */
  predicate NameBefore(a: string, b: string)
    decreases |a|
  {
    if a == [] then b != []
    else if b == [] then false
    else a[0] < b[0] || (a[0] == b[0] && NameBefore(a[1..], b[1..]))
  }

  /** `dir(self)`: the provider's attribute names (with `extends` once it is
      set), sorted and without repetition. */
  predicate IsDirListing(dir: seq<string>, o: ProviderObj) {
    && (forall i | 0 <= i < |dir| - 1 :: NameBefore(dir[i], dir[i + 1]))
    && NoDuplicates(dir)
    && (forall i | 0 <= i < |dir| :: dir[i] in o.attrs || (dir[i] == ExtendsAttr && o.extensions.Some?))
    && (forall x | x in o.attrs :: x in dir)
    && (o.extensions.Some? ==> ExtendsAttr in dir)
  }

  lemma {:induction false} CloseNamesNoDuplicates(dir: seq<string>, beforeClose: seq<string>)
    requires NoDuplicates(dir)
    ensures NoDuplicates(CloseNames(dir, beforeClose))
    decreases |dir|
  {
    if dir != [] {
      var init := dir[..|dir| - 1];
      assert NoDuplicates(init);
      CloseNamesNoDuplicates(init, beforeClose);
      assert dir[|dir| - 1] !in init;
    }
  }

  /** No name is called twice, and a name is called exactly when it is in
      `before_close` or is a `close_*` name of the listing. */
  lemma CloseOrderCallsEachOnce(beforeClose: seq<string>, dir: seq<string>)
    requires NoDuplicates(dir)
    ensures NoDuplicates(CloseOrder(beforeClose, dir))
    ensures forall x :: x in CloseOrder(beforeClose, dir) <==> x in beforeClose || (x in dir && IsCloseMethod(x))
  {
    CloseNamesNoDuplicates(dir, beforeClose);
    NoDuplicatesConcat(Dedup(beforeClose), CloseNames(dir, beforeClose));
  }

  /** `close` calls an accessor only when `before_close` names it. */
  lemma CloseSkipsAccessors(beforeClose: seq<string>, dir: seq<string>, base: Option<string>)
    requires NoDuplicates(dir)
    ensures AccessorName(base) in CloseOrder(beforeClose, dir) ==> AccessorName(base) in beforeClose
  {
    CloseOrderCallsEachOnce(beforeClose, dir);
    AccessorNeverCloseMethod(base);
  }

  /** The first loop of `close`: each `before_close` name not yet called is
      looked up with `getattr` (so it may reach an extended provider's method)
      and called. */
  method CallBeforeClose(h: Heap, p: ProviderId, beforeClose: seq<string>, fuel: nat)
    returns (called: seq<string>, seen: set<string>, err: Option<Error>)
    requires p in h && Closed(h)
    ensures forall k | 0 <= k < |called| :: Callable(h, p, called[k], fuel).Ok?
    ensures err.None? ==> called == Dedup(beforeClose) && forall x :: x in seen <==> x in beforeClose
    ensures err.Some? ==> |called| < |Dedup(beforeClose)| && called <= Dedup(beforeClose)
    ensures err.Some? ==> Callable(h, p, Dedup(beforeClose)[|called|], fuel) == Err(err.value)
  {
    called := [];
    seen := {};
    var i := 0;
    while i < |beforeClose|
      invariant 0 <= i <= |beforeClose|
      invariant called == Dedup(beforeClose[..i])
      invariant forall x :: x in seen <==> x in called
      invariant forall k | 0 <= k < |called| :: Callable(h, p, called[k], fuel).Ok?
    {
      called, seen, err := VisitBeforeClose(h, p, beforeClose, i, called, seen, fuel);
      if err.Some? {
        return;
      }
      i := i + 1;
    }
    assert beforeClose[..i] == beforeClose;
    err := None;
  }

  /** One turn of the first loop of `close`: the name at position `i` is
      skipped if already called, and otherwise either called or the error
      of looking it up is returned. */
  method VisitBeforeClose(h: Heap, p: ProviderId, beforeClose: seq<string>, i: nat, called0: seq<string>, seen0: set<string>, fuel: nat)
    returns (called: seq<string>, seen: set<string>, err: Option<Error>)
    requires p in h && Closed(h) && i < |beforeClose|
    requires called0 == Dedup(beforeClose[..i])
    requires forall x :: x in seen0 <==> x in called0
    requires forall k | 0 <= k < |called0| :: Callable(h, p, called0[k], fuel).Ok?
    ensures forall k | 0 <= k < |called| :: Callable(h, p, called[k], fuel).Ok?
    ensures err.None? ==> called == Dedup(beforeClose[..i + 1]) && forall x :: x in seen <==> x in called
    ensures err.Some? ==> |called| < |Dedup(beforeClose)| && called <= Dedup(beforeClose)
    ensures err.Some? ==> Callable(h, p, Dedup(beforeClose)[|called|], fuel) == Err(err.value)
  {
    called, seen, err := called0, seen0, None;
    var name := beforeClose[i];
    DedupStep(beforeClose, i);
    if name !in seen {
      var m := Callable(h, p, name, fuel);
      if m.Err? {
        err := Some(m.error);
        StopInBeforeClose(beforeClose, i);
        NextInPrefix(called, name, Dedup(beforeClose));
        return;
      }
      called := called + [name];
      seen := seen + {name};
    }
  }

  /** The second loop of `close`: each name of the `dir` listing that was not
      called yet and is a close method is looked up and called. */
  method CallCloseMethods(h: Heap, p: ProviderId, beforeClose: seq<string>, seen: set<string>, dir: seq<string>, fuel: nat)
    returns (called: seq<string>, err: Option<Error>)
    requires p in h && Closed(h) && NoDuplicates(dir)
    requires forall x :: x in seen <==> x in beforeClose
    ensures forall k | 0 <= k < |called| :: Callable(h, p, called[k], fuel).Ok?
    ensures err.None? ==> called == CloseNames(dir, beforeClose)
    ensures err.Some? ==> |called| < |CloseNames(dir, beforeClose)| && called <= CloseNames(dir, beforeClose)
    ensures err.Some? ==> Callable(h, p, CloseNames(dir, beforeClose)[|called|], fuel) == Err(err.value)
  {
    called := [];
    var done := seen;
    var j := 0;
    while j < |dir|
      invariant 0 <= j <= |dir|
      invariant called == CloseNames(dir[..j], beforeClose)
      invariant forall x :: x in done <==> x in beforeClose || x in called
      invariant forall k | 0 <= k < |called| :: Callable(h, p, called[k], fuel).Ok?
    {
      var name := dir[j];
      CloseNamesPrefix(dir, j, beforeClose);
      assert name !in dir[..j] by {
        assert forall k | 0 <= k < j :: dir[k] != dir[j];
      }
      if name !in done && IsCloseMethod(name) {
        var m := Callable(h, p, name, fuel);
        if m.Err? {
          err := Some(m.error);
          CloseNamesPrefixOfWhole(dir, j + 1, beforeClose);
          NextInPrefix(called, name, CloseNames(dir, beforeClose));
          return;
        }
        called := called + [name];
        done := done + {name};
      }
      j := j + 1;
    }
    assert dir[..j] == dir;
    err := None;
  }

  /** `close()`: the names called, in order, and the error that stopped the
      walk, if any. A name that is not a method stops `close` with the error
      of looking it up or of calling it. */
  method Close(h: Heap, p: ProviderId, beforeClose: seq<string>, dir: seq<string>, fuel: nat)
    returns (called: seq<string>, err: Option<Error>)
    requires p in h && Closed(h) && IsDirListing(dir, h[p])
    ensures forall k | 0 <= k < |called| :: Callable(h, p, called[k], fuel).Ok?
    ensures NoDuplicates(called)
    ensures err.None? ==> called == CloseOrder(beforeClose, dir)
    ensures err.Some? ==> |called| < |CloseOrder(beforeClose, dir)| && called <= CloseOrder(beforeClose, dir)
    ensures err.Some? ==> Callable(h, p, CloseOrder(beforeClose, dir)[|called|], fuel) == Err(err.value)
  {
    CloseOrderCallsEachOnce(beforeClose, dir);
    var first, seen, err1 := CallBeforeClose(h, p, beforeClose, fuel);
    if err1.Some? {
      called, err := first, err1;
      var name := Dedup(beforeClose)[|called|];
      NextInPrefix(called, name, Dedup(beforeClose));
      PrefixExtend(called + [name], Dedup(beforeClose), CloseNames(dir, beforeClose));
      NextInPrefix(called, name, CloseOrder(beforeClose, dir));
      PrefixKeepsNoDuplicates(called, CloseOrder(beforeClose, dir));
      return;
    }
    var second, err2 := CallCloseMethods(h, p, beforeClose, seen, dir, fuel);
    called, err := first + second, err2;
    if err2.Some? {
      var name := CloseNames(dir, beforeClose)[|second|];
      NextInPrefix(second, name, CloseNames(dir, beforeClose));
      assert called + [name] == first + (second + [name]);
      PrefixAppend(first, second + [name], CloseNames(dir, beforeClose));
      NextInPrefix(called, name, CloseOrder(beforeClose, dir));
      PrefixKeepsNoDuplicates(called, CloseOrder(beforeClose, dir));
    } else {
      PrefixKeepsNoDuplicates(called, CloseOrder(beforeClose, dir));
    }
  }

  /** `a + [x]` is a prefix of `b` exactly when `a` is a proper prefix of `b`
      followed there by `x`. */
  lemma NextInPrefix(a: seq<string>, x: string, b: seq<string>)
    ensures a + [x] <= b <==> |a| < |b| && a <= b && b[|a|] == x
  {
    if |a| < |b| && a <= b && b[|a|] == x {
      assert b[..|a| + 1] == b[..|a|] + [b[|a|]];
    }
  }

  lemma PrefixExtend(a: seq<string>, b: seq<string>, c: seq<string>)
    requires a <= b
    ensures a <= b + c
  {
    assert (b + c)[..|a|] == b[..|a|];
  }

  lemma PrefixAppend(a: seq<string>, b: seq<string>, c: seq<string>)
    requires b <= c
    ensures a + b <= a + c
  {
    assert (a + c)[..|a + b|] == a + c[..|b|];
  }

  lemma PrefixKeepsNoDuplicates(a: seq<string>, b: seq<string>)
    requires a <= b && NoDuplicates(b)
    ensures NoDuplicates(a)
  {
    assert forall i | 0 <= i < |a| :: a[i] == b[i];
  }

  /** One more name either is already in the deduplication or is appended
      to it. */
  lemma DedupStep(xs: seq<string>, i: nat)
    requires i < |xs|
    ensures Dedup(xs[..i + 1]) == if xs[i] in xs[..i] then Dedup(xs[..i]) else Dedup(xs[..i]) + [xs[i]]
  {
    assert xs[..i + 1][..i] == xs[..i];
  }

  /** A name met for the first time at position `i` extends what was called
      so far to a prefix of the whole deduplication. */
  lemma StopInBeforeClose(xs: seq<string>, i: nat)
    requires i < |xs| && xs[i] !in xs[..i]
    ensures Dedup(xs[..i]) + [xs[i]] <= Dedup(xs)
  {
    DedupStep(xs, i);
    DedupPrefix(xs, i + 1);
  }

  /** The deduplication of a prefix is a prefix of the whole deduplication. */
  lemma {:induction false} DedupPrefix(xs: seq<string>, i: nat)
    requires i <= |xs|
    ensures Dedup(xs[..i]) <= Dedup(xs)
    decreases |xs| - i
  {
    if i < |xs| {
      DedupPrefix(xs, i + 1);
      assert xs[..i + 1][..i] == xs[..i];
    } else {
      assert xs[..i] == xs;
    }
  }

  lemma {:induction false} CloseNamesPrefix(dir: seq<string>, j: nat, beforeClose: seq<string>)
    requires j < |dir|
    ensures CloseNames(dir[..j + 1], beforeClose) ==
      CloseNames(dir[..j], beforeClose) + (if IsCloseMethod(dir[j]) && dir[j] !in beforeClose then [dir[j]] else [])
  {
    assert dir[..j + 1][..j] == dir[..j];
  }

  lemma {:induction false} CloseNamesPrefixOfWhole(dir: seq<string>, j: nat, beforeClose: seq<string>)
    requires j <= |dir|
    ensures CloseNames(dir[..j], beforeClose) <= CloseNames(dir, beforeClose)
    decreases |dir| - j
  {
    if j < |dir| {
      CloseNamesPrefixOfWhole(dir, j + 1, beforeClose);
      CloseNamesPrefix(dir, j, beforeClose);
    } else {
      assert dir[..j] == dir;
    }
  }

}

=== FILE: common.dfy ===
/** Types shared by every part of the model: optional values, the Python
    exceptions the injector raises or lets through, and class identities. */
module Common {

  datatype Option<+T> = None | Some(value: T)

  /** A class, identified by its qualified name. A method resolution order is
      a sequence of these, most-derived first. */
  type ClassId = string

  /** The exceptions of the modelled code. Payloads keep only what the
      properties talk about. */
  datatype Error =
      /** `getattr` found no attribute of this name. */
    | AttributeError(attr: string)
      /** A non-callable was called, or `decorate()` got an unexpected keyword. */
    | TypeError(what: string)
      /** An invalid decoration mode, a named `configure`, or `list.remove` of a
          missing element. */
    | ValueError(msg: string)
      /** `dict.pop` of a missing key. */
    | KeyError
      /** `lookup` found no annotation for the callable. */
    | LookupError
      /** Python's recursion limit, reached by cyclic `extends` or `implement`. */
    | RecursionError
      /** A dependency that could be provided but is currently unset. `msg` is
          the argument the exception was constructed with; `note` is the note
          attached on re-raise. */
    | UnsetError(msg: string, note: Option<string>)

  datatype Result<+T> = Ok(value: T) | Err(error: Error) {
    predicate IsFailure() {
      Err?
    }

    function PropagateFailure<U>(): Result<U>
      requires Err?
    {
      Err(error)
    }

    function Extract(): T
      requires Ok?
    {
      value
    }
  }

  /** True when no element occurs twice. */
  predicate NoDuplicates<T(==)>(xs: seq<T>) {
    forall i, j :: 0 <= i < j < |xs| ==> xs[i] != xs[j]
  }

  lemma NoDuplicatesConcat<T>(a: seq<T>, b: seq<T>)
    requires NoDuplicates(a) && NoDuplicates(b)
    requires forall x | x in a :: x !in b
    ensures NoDuplicates(a + b)
  {
    forall i, j | 0 <= i < j < |a + b|
      ensures (a + b)[i] != (a + b)[j]
    {
      if i < |a| && j >= |a| {
        assert (a + b)[i] in a && (a + b)[j] in b;
      }
    }
  }
}

=== FILE: decoration.dfy ===
/** The decoration layer of `DecoratingInjector`: per-class registries of
    `(mode, fn)` entries keyed by `(basenote, name)`, registration through
    `decorate`/`configure`, iteration base-class first, and application as a
    left fold. The note type of the injector is a parameter: `B` is the type
    of base notes its `parse_note` produces. */
module Decoration {
  import opened Common

  const DecorateModeText: string := "decorate"
  const ConfigureModeText: string := "configure"
  const ModeKeyword: string := "mode"
  const InvalidModeMessage: string := "Invalid decorate() mode"
  const NamedConfigureMessage: string := "Decorating named notes in configure mode not supported"

  /** A validated decoration mode. */
  datatype Mode = Decorate | Configure

  /** A decorator, by identity. What it computes is given separately. */
  type DecoratorId = nat

  datatype Entry = Entry(mode: Mode, fn: DecoratorId)

  /** The registry key `(basenote, name)`. */
  datatype Key<B> = Key(base: B, name: Option<string>)

  /** `vars(cls)['decorator_registry']` for each class that has its own. */
  type Registry<B(==)> = map<ClassId, map<Key<B>, seq<Entry>>>

  /** The entries a class registered itself under a key. */
  function Own<B(==,!new)>(reg: Registry<B>, c: ClassId, key: Key<B>): seq<Entry> {
    if c in reg && key in reg[c] then reg[c][key] else []
  }

  /** What `decorate` hands back when it does not fail: the decorator itself
      after registering it, or, without a decorator, a registrar carrying the
      note and the (not yet validated) mode. */
  datatype Registration<B> =
    | Registered(registry: Registry<B>, fn: DecoratorId)
    | Curried(note: string, mode: string)

  /** `kw.pop('mode', DECORATE)`. */
  function ModeOf(kw: seq<(string, string)>): string {
    if kw == [] then DecorateModeText
    else if kw[0].0 == ModeKeyword then kw[0].1
    else ModeOf(kw[1..])
  }

  /** The keyword names other than `mode`, in order. */
  function OtherKeywords(kw: seq<(string, string)>): (r: seq<string>)
    ensures forall k :: k in r <==> k != ModeKeyword && exists i | 0 <= i < |kw| :: kw[i].0 == k
  {
    if kw == [] then []
    else
      var rest := OtherKeywords(kw[1..]);
      assert forall i | 1 <= i < |kw| :: kw[i] == kw[1..][i - 1];
      if kw[0].0 == ModeKeyword then rest else [kw[0].0] + rest
  }

  function ParseMode(mode: string): Option<Mode> {
    if mode == DecorateModeText then Some(Decorate)
    else if mode == ConfigureModeText then Some(Configure)
    else None
  }

  /** `Registry[cls][key].append(entry)`, creating the class's own registry
      when it has none. */
  function Append<B(==,!new)>(reg: Registry<B>, cls: ClassId, key: Key<B>, e: Entry): (r: Registry<B>)
    ensures Own(r, cls, key) == Own(reg, cls, key) + [e]
    ensures forall c, k | c != cls || k != key :: Own(r, c, k) == Own(reg, c, k)
  {
    var own := if cls in reg then reg[cls] else map[];
    reg[cls := own[key := Own(reg, cls, key) + [e]]]
  }

  /** `decorate(note, fn=None, **kw)` on class `cls`. The checks run in the
      source's order: an unexpected keyword, then a missing decorator (which
      defers every other check to the registrar), then the mode, then the
      note's parse, then a named note in configure mode. */
  function DecorateOn<B(==,!new)>(reg: Registry<B>, cls: ClassId, parse: string -> Result<Key<B>>,
                         note: string, fn: Option<DecoratorId>, kw: seq<(string, string)>): (r: Result<Registration<B>>)
    ensures OtherKeywords(kw) != [] ==> r == Err(TypeError(OtherKeywords(kw)[0]))
    ensures OtherKeywords(kw) == [] && fn.None? ==> r == Ok(Curried(note, ModeOf(kw)))
    ensures fn.Some? && ParseMode(ModeOf(kw)).None? && OtherKeywords(kw) == [] ==> r == Err(ValueError(InvalidModeMessage))
    ensures r.Ok? && r.value.Registered? ==>
      && fn == Some(r.value.fn)
      && ParseMode(ModeOf(kw)).Some?
      && parse(note).Ok?
      && (ParseMode(ModeOf(kw)) == Some(Configure) ==> parse(note).value.name.None?)
      && var key := parse(note).value;
         && Own(r.value.registry, cls, key) == Own(reg, cls, key) + [Entry(ParseMode(ModeOf(kw)).value, fn.value)]
         && forall c, k | c != cls || k != key :: Own(r.value.registry, c, k) == Own(reg, c, k)
    ensures OtherKeywords(kw) == [] && fn.Some? && ParseMode(ModeOf(kw)).Some? ==>
      var mode := ParseMode(ModeOf(kw)).value;
      && (parse(note).Err? ==> r == Err(parse(note).error))
      && (parse(note).Ok? && mode == Configure && parse(note).value.name.Some? ==> r == Err(ValueError(NamedConfigureMessage)))
      && (parse(note).Ok? && (mode == Decorate || parse(note).value.name.None?) ==> r.Ok? && r.value.Registered?)
  {
    var others := OtherKeywords(kw);
    if others != [] then Err(TypeError(others[0]))
    else if fn.None? then Ok(Curried(note, ModeOf(kw)))
    else
      match ParseMode(ModeOf(kw))
      case None => Err(ValueError(InvalidModeMessage))
      case Some(mode) =>
        var key :- parse(note);
        if mode == Configure && key.name.Some? then Err(ValueError(NamedConfigureMessage))
        else Ok(Registered(Append(reg, cls, key, Entry(mode, fn.value)), fn.value))
  }

  /** `configure(note, fn=None)`: `decorate` in configure mode. Without a
      decorator it hands back a configure-mode registrar; with one, a parse
      failure propagates, a named note is refused, and an unnamed note gets a
      configure entry appended to the class's own list and nowhere else. */
  function ConfigureOn<B(==,!new)>(reg: Registry<B>, cls: ClassId, parse: string -> Result<Key<B>>,
                          note: string, fn: Option<DecoratorId>): (r: Result<Registration<B>>)
    ensures fn.None? ==> r == Ok(Curried(note, ConfigureModeText))
    ensures fn.Some? && parse(note).Err? ==> r == Err(parse(note).error)
    ensures fn.Some? && parse(note).Ok? && parse(note).value.name.Some? ==> r == Err(ValueError(NamedConfigureMessage))
    ensures fn.Some? && parse(note).Ok? && parse(note).value.name.None? ==>
      var key := parse(note).value;
      && r.Ok? && r.value.Registered? && r.value.fn == fn.value
      && Own(r.value.registry, cls, key) == Own(reg, cls, key) + [Entry(Configure, fn.value)]
      && forall c, k | c != cls || k != key :: Own(r.value.registry, c, k) == Own(reg, c, k)
  {
    ModeKeywordAlone(ConfigureModeText);
    DecorateOn(reg, cls, parse, note, fn, [(ModeKeyword, ConfigureModeText)])
  }

  /** A lone `mode=` keyword selects that mode and leaves no other keyword. */
  lemma ModeKeywordAlone(m: string)
    ensures ModeOf([(ModeKeyword, m)]) == m
    ensures OtherKeywords([(ModeKeyword, m)]) == []
  {
    assert [(ModeKeyword, m)][1..] == [];
  }

  /** A named note cannot be configured: `ValueError`, nothing registered. */
  lemma ConfigureRejectsNamedNote<B(!new)>(reg: Registry<B>, cls: ClassId, parse: string -> Result<Key<B>>, note: string, fn: DecoratorId)
    requires parse(note).Ok? && parse(note).value.name.Some?
    ensures ConfigureOn(reg, cls, parse, note, Some(fn)) == Err(ValueError(NamedConfigureMessage))
  {
    ModeKeywordAlone(ConfigureModeText);
  }

  /** The registrar returned for a missing decorator, given one, does what
      `decorate` would have done with it directly. */
  lemma CurriedRegistrarAgrees<B(!new)>(reg: Registry<B>, cls: ClassId, parse: string -> Result<Key<B>>,
                                  note: string, kw: seq<(string, string)>, fn: DecoratorId)
    requires DecorateOn(reg, cls, parse, note, None, kw).Ok?
    ensures var c := DecorateOn(reg, cls, parse, note, None, kw).value;
      c == Curried(note, ModeOf(kw)) &&
      DecorateOn(reg, cls, parse, c.note, Some(fn), [(ModeKeyword, c.mode)]) == DecorateOn(reg, cls, parse, note, Some(fn), kw)
  {
    ModeKeywordAlone(ModeOf(kw));
  }

  // ---------------------------------------------------------------------
  // Iteration and application

  /** `decorators_iter`: the entries under exactly `key`, from the classes of
      the MRO walked in reverse (base first), each class's in registration
      order. */
  function DecoratorsIter<B(==,!new)>(reg: Registry<B>, mro: seq<ClassId>, key: Key<B>): (r: seq<Entry>)
    ensures mro == [] ==> r == []
    ensures |mro| == 1 ==> r == Own(reg, mro[0], key)
    decreases |mro|
  {
    if mro == [] then [] else DecoratorsIter(reg, mro[1..], key) + Own(reg, mro[0], key)
  }

  /** Splitting the MRO splits the iteration, the later (base) part first. */
  lemma {:induction false} DecoratorsIterSplit<B(!new)>(reg: Registry<B>, m1: seq<ClassId>, m2: seq<ClassId>, key: Key<B>)
    ensures DecoratorsIter(reg, m1 + m2, key) == DecoratorsIter(reg, m2, key) + DecoratorsIter(reg, m1, key)
    decreases |m1|
  {
    if m1 == [] {
      assert m1 + m2 == m2;
    } else {
      assert (m1 + m2)[1..] == m1[1..] + m2;
      DecoratorsIterSplit(reg, m1[1..], m2, key);
    }
  }

  /** An entry is yielded only when some class of the MRO registered it under
      exactly this key. */
  lemma {:induction false} DecoratorsIterMembers<B(!new)>(reg: Registry<B>, mro: seq<ClassId>, key: Key<B>)
    ensures forall e :: e in DecoratorsIter(reg, mro, key) <==> exists i | 0 <= i < |mro| :: e in Own(reg, mro[i], key)
    decreases |mro|
  {
    if mro != [] {
      DecoratorsIterMembers(reg, mro[1..], key);
      assert forall i | 1 <= i < |mro| :: mro[i] == mro[1..][i - 1];
    }
  }

  /** Registering on a class outside the MRO, or under another key, does not
      change what is yielded. */
  lemma {:induction false} DecoratorsIterUnaffected<B(!new)>(reg: Registry<B>, cls: ClassId, k: Key<B>, e: Entry, mro: seq<ClassId>, key: Key<B>)
    requires cls !in mro || k != key
    ensures DecoratorsIter(Append(reg, cls, k, e), mro, key) == DecoratorsIter(reg, mro, key)
    decreases |mro|
  {
    if mro != [] {
      DecoratorsIterUnaffected(reg, cls, k, e, mro[1..], key);
    }
  }

  /** Registering on the most-derived class (appearing once in its MRO) adds
      the entry at the very end of the iteration. */
  lemma DecoratorsIterRegisterOnMostDerived<B(!new)>(reg: Registry<B>, mro: seq<ClassId>, key: Key<B>, e: Entry)
    requires |mro| > 0 && mro[0] !in mro[1..]
    ensures DecoratorsIter(Append(reg, mro[0], key, e), mro, key) == DecoratorsIter(reg, mro, key) + [e]
  {
    DecoratorsIterUnaffected(reg, mro[0], key, e, mro[1..], key);
  }

  /** One decorator call: the decorator and the value it received. */
  datatype Invocation<V> = Invocation(fn: DecoratorId, arg: V)

  /** The value after decoration and the calls made, in order. */
  datatype Applied<V> = Applied(value: V, calls: seq<Invocation<V>>)

  /** `decorators_apply`: each entry's decorator is called with the current
      value; in decorate mode its result becomes the current value, in
      configure mode its result is discarded. */
  function DecoratorsApply<V>(entries: seq<Entry>, run: DecoratorId -> V -> V, v: V): (r: Applied<V>)
    ensures |r.calls| == |entries|
    ensures entries != [] ==> r.calls[0] == Invocation(entries[0].fn, v)
    decreases |entries|
  {
    if entries == [] then Applied(v, [])
    else
      var e := entries[0];
      var out := run(e.fn)(v);
      var next := if e.mode == Decorate then out else v;
      var rest := DecoratorsApply(entries[1..], run, next);
      Applied(rest.value, [Invocation(e.fn, v)] + rest.calls)
  }

  /** Every entry's decorator is called exactly once, in entry order, the
      first one with the value given. */
  lemma {:induction false} DecoratorsApplyCallsEach<V>(entries: seq<Entry>, run: DecoratorId -> V -> V, v: V)
    ensures var r := DecoratorsApply(entries, run, v);
      && |r.calls| == |entries|
      && (forall i | 0 <= i < |entries| :: r.calls[i].fn == entries[i].fn)
      && (entries != [] ==> r.calls[0].arg == v)
    decreases |entries|
  {
    if entries != [] {
      var e := entries[0];
      var next := if e.mode == Decorate then run(e.fn)(v) else v;
      DecoratorsApplyCallsEach(entries[1..], run, next);
    }
  }

  /** Applying a concatenation applies the second part to the result of the
      first; the calls are concatenated. */
  lemma {:induction false} DecoratorsApplySplit<V>(e1: seq<Entry>, e2: seq<Entry>, run: DecoratorId -> V -> V, v: V)
    ensures var r1 := DecoratorsApply(e1, run, v);
      var r2 := DecoratorsApply(e2, run, r1.value);
      DecoratorsApply(e1 + e2, run, v) == Applied(r2.value, r1.calls + r2.calls)
    decreases |e1|
  {
    if e1 == [] {
      assert e1 + e2 == e2;
    } else {
      var e := e1[0];
      var next := if e.mode == Decorate then run(e.fn)(v) else v;
      assert (e1 + e2)[0] == e;
      assert (e1 + e2)[1..] == e1[1..] + e2;
      DecoratorsApplySplit(e1[1..], e2, run, next);
      var tail1 := DecoratorsApply(e1[1..], run, next);
      var r2 := DecoratorsApply(e2, run, tail1.value);
      var whole := DecoratorsApply(e1[1..] + e2, run, next);
      assert whole == Applied(r2.value, tail1.calls + r2.calls);
      assert DecoratorsApply(e1, run, v) == Applied(tail1.value, [Invocation(e.fn, v)] + tail1.calls);
      assert DecoratorsApply(e1 + e2, run, v) == Applied(whole.value, [Invocation(e.fn, v)] + whole.calls);
      assert [Invocation(e.fn, v)] + (tail1.calls + r2.calls) == ([Invocation(e.fn, v)] + tail1.calls) + r2.calls;
    }
  }

  /** Only the decorate-mode entries. */
  function DecorateOnly(entries: seq<Entry>): (r: seq<Entry>)
    ensures forall e | e in r :: e.mode == Decorate && e in entries
  {
    if entries == [] then []
    else if entries[0].mode == Decorate then [entries[0]] + DecorateOnly(entries[1..])
    else DecorateOnly(entries[1..])
  }

  /** Configure-mode entries never change the value: the result is that of
      the decorate-mode entries alone. */
  lemma {:induction false} ConfigureNeverAltersValue<V>(entries: seq<Entry>, run: DecoratorId -> V -> V, v: V)
    ensures DecoratorsApply(entries, run, v).value == DecoratorsApply(DecorateOnly(entries), run, v).value
    decreases |entries|
  {
    if entries != [] {
      var e := entries[0];
      var next := if e.mode == Decorate then run(e.fn)(v) else v;
      ConfigureNeverAltersValue(entries[1..], run, next);
    }
  }

  /** With configure-mode entries only, the value is returned as is and every
      configurer sees it. */
  lemma {:induction false} ConfigureOnlyKeepsValue<V>(entries: seq<Entry>, run: DecoratorId -> V -> V, v: V)
    requires forall i | 0 <= i < |entries| :: entries[i].mode == Configure
    ensures DecoratorsApply(entries, run, v).value == v
    ensures forall c | c in DecoratorsApply(entries, run, v).calls :: c.arg == v
    decreases |entries|
  {
    if entries != [] {
      assert forall i | 1 <= i < |entries| :: entries[i] == entries[1..][i - 1];
      ConfigureOnlyKeepsValue(entries[1..], run, v);
    }
  }

  /** Decorate-mode entries compose their functions left to right. */
  lemma DecorateEntriesCompose<V>(f: DecoratorId, g: DecoratorId, run: DecoratorId -> V -> V, v: V)
    ensures DecoratorsApply([Entry(Decorate, f), Entry(Decorate, g)], run, v) ==
      Applied(run(g)(run(f)(v)), [Invocation(f, v), Invocation(g, run(f)(v))])
  {
    var es := [Entry(Decorate, f), Entry(Decorate, g)];
    var w := run(f)(v);
    assert es[1..] == [Entry(Decorate, g)];
    assert es[1..][1..] == [];
    assert DecoratorsApply(es[1..][1..], run, run(g)(w)) == Applied(run(g)(w), []);
    assert DecoratorsApply(es[1..], run, w) == Applied(run(g)(w), [Invocation(g, w)]);
  }
}

=== FILE: injection.dfy ===
/** `DecoratingInjector._handle_provider`: materialise the provider of a base
    note once per injector instance, get a value from it, decorate the value,
    and cache it when the note is unnamed. The injector base this relies on
    is given as data: the outcomes of materialising a factory, of binding
    `provider.get`, and of calling it. */
module Injection {
  import opened Common
  import opened Notes
  import opened Decoration

  /** The per-instance caches `instances` and `values`, keyed by base note. */
  datatype Caches<B, P, V> = Caches(instances: map<B, P>, values: map<B, V>)

  /** The injector class as decoration sees it: its MRO, the decoration
      registries, and what each decorator computes. */
  datatype Decorations<B, !V> = Decorations(mro: seq<ClassId>, registry: Registry<B>, run: DecoratorId -> V -> V)

  /** A provider factory together with the outcomes of the injector-base
      operations `_handle_provider` calls on it: construction through an
      annotated `__init__` (`prepare_callable`) or `apply_regardless`,
      binding `provider.get` (`partial_regardless`), and the bound `get`
      called without or with a name. */
  datatype Factory<!P, V> = Factory(
    annotatedClass: bool,
    viaInit: Result<P>,
    viaApply: Result<P>,
    bindGet: P -> Option<Error>,
    get: (P, Option<string>) -> Result<V>)
  {
    /** A class whose `__init__` is annotated is constructed with its
        dependencies; anything else goes through `apply_regardless`. */
    function Materialize(): Result<P> {
      if annotatedClass then viaInit else viaApply
    }
  }

  /** The caches after the call and the value or error the call ends with. */
  datatype Outcome<B, P, V> = Outcome(caches: Caches<B, P, V>, result: Result<V>)

  /** The message of the re-raised `UnsetError`: the original message, then
      the note's representation. */
  function WithNote(msg: string, noteRepr: string): (r: string)
    ensures msg == "" ==> r == noteRepr
    ensures msg != "" ==> |r| > |msg| && r[..|msg|] == msg && r[|msg|..] == ": " + noteRepr
  {
    if msg != "" then msg + ": " + noteRepr else noteRepr
  }

  /** The value `get` produced, passed through the decorators of exactly
      `(basenote, name)`. */
  function Decorated<B(==,!new), V>(d: Decorations<B, V>, basenote: B, name: Option<string>, raw: V): V {
    DecoratorsApply(DecoratorsIter(d.registry, d.mro, Key(basenote, name)), d.run, raw).value
  }

  /** `_handle_provider(provider_factory, note, basenote, name)`. `noteRepr`
      is `repr(note)`. Materialising and binding `get` happen outside the
      `try`, so their errors propagate unchanged; an `UnsetError` from `get`
      is re-raised with the note attached. */
  function HandleProvider<B(==,!new), P, V>(d: Decorations<B, V>, c: Caches<B, P, V>, f: Factory<P, V>,
                                       note: string, noteRepr: string, basenote: B, name: Option<string>): (o: Outcome<B, P, V>)
    ensures basenote in c.instances ==> o.caches.instances == c.instances
    ensures basenote !in c.instances && f.Materialize().Err? ==> o == Outcome(c, Err(f.Materialize().error))
    ensures basenote !in c.instances && f.Materialize().Ok? ==>
      o.caches.instances == c.instances[basenote := f.Materialize().value]
    ensures name.Some? || o.result.Err? ==> o.caches.values == c.values
    ensures name.None? && o.result.Ok? ==> o.caches.values == c.values[basenote := o.result.value]
    ensures o.result.Ok? ==>
      && basenote in o.caches.instances
      && var p := o.caches.instances[basenote];
         f.bindGet(p).None? && f.get(p, name).Ok? && o.result.value == Decorated(d, basenote, name, f.get(p, name).value)
    ensures basenote in o.caches.instances ==>
      var p := o.caches.instances[basenote];
      var g := f.get(p, name);
      && (f.bindGet(p).Some? ==> o.result == Err(f.bindGet(p).value))
      && (f.bindGet(p).None? && g.Ok? ==> o.result == Ok(Decorated(d, basenote, name, g.value)))
      && (f.bindGet(p).None? && g.Err? && g.error.UnsetError? ==>
            o.result == Err(UnsetError(WithNote(g.error.msg, noteRepr), Some(note))))
      && (f.bindGet(p).None? && g.Err? && !g.error.UnsetError? ==> o.result == g)
  {
    if basenote !in c.instances && f.Materialize().Err? then Outcome(c, Err(f.Materialize().error))
    else
      var c1 := if basenote in c.instances then c else c.(instances := c.instances[basenote := f.Materialize().value]);
      var p := c1.instances[basenote];
      match f.bindGet(p)
      case Some(e) => Outcome(c1, Err(e))
      case None =>
        match f.get(p, name)
        case Err(e) =>
          if e.UnsetError? then Outcome(c1, Err(UnsetError(WithNote(e.msg, noteRepr), Some(note))))
          else Outcome(c1, Err(e))
        case Ok(raw) =>
          var value := Decorated(d, basenote, name, raw);
          if name.Some? then Outcome(c1, Ok(value))
          else Outcome(c1.(values := c1.values[basenote := value]), Ok(value))
  }

  /** A provider is materialised at most once per injector: after a call that
      materialised it, later calls for the same base note (named or not, with
      any factory) reuse it and never materialise again. */
  lemma MaterializedOnce<B(!new), P, V>(d: Decorations<B, V>, c: Caches<B, P, V>, f1: Factory<P, V>, f2: Factory<P, V>,
                                      note1: string, note2: string, repr1: string, repr2: string,
                                      basenote: B, name1: Option<string>, name2: Option<string>)
    requires f1.Materialize().Ok? || basenote in c.instances
    ensures var o1 := HandleProvider(d, c, f1, note1, repr1, basenote, name1);
      var o2 := HandleProvider(d, o1.caches, f2, note2, repr2, basenote, name2);
      && basenote in o1.caches.instances
      && o2.caches.instances == o1.caches.instances
      && (basenote in c.instances ==> o1.caches.instances[basenote] == c.instances[basenote])
  {
  }

  /** A named get never touches the cached unnamed value, and an unnamed
      get caches exactly the value it returns. */
  lemma NamedGetNeverCaches<B(!new), P, V>(d: Decorations<B, V>, c: Caches<B, P, V>, f: Factory<P, V>,
                                         note: string, noteRepr: string, basenote: B, name: string)
    ensures HandleProvider(d, c, f, note, noteRepr, basenote, Some(name)).caches.values == c.values
  {
  }

  /** Errors raised outside the `try` (materialising, binding `get`) and
      errors other than `UnsetError` from `get` propagate unchanged, whether
      the provider was cached or is materialised by this call. */
  lemma OtherErrorsPropagate<B(!new), P, V>(d: Decorations<B, V>, c: Caches<B, P, V>, f: Factory<P, V>,
                                          note: string, noteRepr: string, basenote: B, name: Option<string>)
    ensures basenote !in c.instances && f.Materialize().Err? ==>
      HandleProvider(d, c, f, note, noteRepr, basenote, name).result == Err(f.Materialize().error)
    ensures basenote in c.instances || f.Materialize().Ok? ==>
      var p := if basenote in c.instances then c.instances[basenote] else f.Materialize().value;
      var g := f.get(p, name);
      var r := HandleProvider(d, c, f, note, noteRepr, basenote, name).result;
      && (f.bindGet(p).Some? ==> r == Err(f.bindGet(p).value))
      && (f.bindGet(p).None? && g.Err? && !g.error.UnsetError? ==> r == g)
  {
  }

  // ---------------------------------------------------------------------
  // Scenarios, with `parse_note` as in `BaseProvider` (split at the first
  // colon) and string values

  /** `parse_note` of `BaseProvider`, as the injector's note parser. */
  function JeniParse(note: string): Result<Key<Option<string>>> {
    var p := ParseNote(note);
    Ok(Key(p.base, p.name))
  }

  /** Under that parser, `configure` on `'genie:foo'` is rejected. */
  lemma ConfigureNamedGenieRejected(reg: Registry<Option<string>>, cls: ClassId, fn: DecoratorId)
    ensures ConfigureOn(reg, cls, JeniParse, "genie:foo", Some(fn)) == Err(ValueError(NamedConfigureMessage))
  {
    ParseNoteRoundTrip("genie", "foo");
    assert "genie:foo" == "genie" + ":" + "foo";
    ConfigureRejectsNamedNote(reg, cls, JeniParse, "genie:foo", fn);
  }

  function Reverse(s: string): (r: string)
    ensures |r| == |s|
  {
    if s == [] then [] else Reverse(s[1..]) + [s[0]]
  }

  /** The decorators of the scenarios: 1 reverses, 2 doubles, 3 is a
      configurer whose result is discarded. */
  function ScenarioRun(fn: DecoratorId): string -> string {
    if fn == 1 then (s: string) => Reverse(s)
    else if fn == 2 then (s: string) => s + s
    else (s: string) => ""
  }

  const ItKey: Key<Option<string>> := Key(Some("it"), None)

  /** Registration through `decorate` on a class with no registry yet, then
      on the same class again: both entries, in order, under `'it'`. */
  lemma DecorateTwiceRegistersInOrder(cls: ClassId)
    ensures var r1 := DecorateOn(map[], cls, JeniParse, "it", Some(1), []);
      && r1.Ok? && r1.value.Registered?
      && var r2 := DecorateOn(r1.value.registry, cls, JeniParse, "it", Some(2), []);
         && r2.Ok? && r2.value.Registered?
         && Own(r2.value.registry, cls, ItKey) == [Entry(Decorate, 1), Entry(Decorate, 2)]
  {
    ParseNoteWithoutColon("it");
  }

  /** Reverse then double on `'abc'` gives `'cbacba'`; a configurer between
      them sees `'cba'` and changes nothing. */
  lemma ReverseThenDouble()
    ensures DecoratorsApply([Entry(Decorate, 1), Entry(Decorate, 2)], ScenarioRun, "abc").value == "cbacba"
    ensures DecoratorsApply([Entry(Decorate, 1), Entry(Configure, 3), Entry(Decorate, 2)], ScenarioRun, "abc") ==
      Applied("cbacba", [Invocation(1, "abc"), Invocation(3, "cba"), Invocation(2, "cba")])
  {
    assert Reverse("abc") == "cba" by {
      assert "abc"[1..] == "bc" && "bc"[1..] == "c" && "c"[1..] == "";
    }
    DecorateEntriesCompose(1, 2, ScenarioRun, "abc");
    var es := [Entry(Decorate, 1), Entry(Configure, 3), Entry(Decorate, 2)];
    assert es[1..] == [Entry(Configure, 3), Entry(Decorate, 2)];
    assert es[1..][1..] == [Entry(Decorate, 2)];
    assert es[1..][1..][1..] == [];
  }

  /** The registry after `decorate('it', reverse)` on `base` and
      `decorate('it', double)` on `sub`, both starting without registries. */
  function NestedRegistry(base: ClassId, sub: ClassId): Registry<Option<string>> {
    Append(Append(map[], base, ItKey, Entry(Decorate, 1)), sub, ItKey, Entry(Decorate, 2))
  }

  lemma NestedRegistryByDecorate(base: ClassId, sub: ClassId)
    ensures var r1 := DecorateOn(map[], base, JeniParse, "it", Some(1), []);
      && r1 == Ok(Registered(Append(map[], base, ItKey, Entry(Decorate, 1)), 1))
      && DecorateOn(r1.value.registry, sub, JeniParse, "it", Some(2), []) == Ok(Registered(NestedRegistry(base, sub), 2))
  {
    ParseNoteWithoutColon("it");
  }

  /** The base injector yields the reverser only; the subclass injector
      yields it, then the doubler. */
  lemma NestedIteration(base: ClassId, sub: ClassId, baseMro: seq<ClassId>)
    requires sub != base && sub !in baseMro && base !in baseMro
    ensures DecoratorsIter(NestedRegistry(base, sub), [base] + baseMro, ItKey) == [Entry(Decorate, 1)]
    ensures DecoratorsIter(NestedRegistry(base, sub), [sub, base] + baseMro, ItKey) == [Entry(Decorate, 1), Entry(Decorate, 2)]
  {
    var reg := NestedRegistry(base, sub);
    assert Own(reg, base, ItKey) == [Entry(Decorate, 1)];
    assert Own(reg, sub, ItKey) == [Entry(Decorate, 2)];
    forall c' | c' in baseMro
      ensures Own(reg, c', ItKey) == []
    {
      assert c' != base && c' != sub;
    }
    NoEntriesIter(reg, baseMro, ItKey);
    assert DecoratorsIter(reg, [base], ItKey) == Own(reg, base, ItKey);
    assert DecoratorsIter(reg, [sub], ItKey) == Own(reg, sub, ItKey);
    DecoratorsIterSplit(reg, [base], baseMro, ItKey);
    DecoratorsIterSplit(reg, [sub], [base] + baseMro, ItKey);
    assert [sub, base] + baseMro == [sub] + ([base] + baseMro);
  }

  /** A decorator registered on a subclass applies to the subclass's
      injectors only, after those of its base: from a provider whose `get`
      returns `'abc'`, the base injector gets `'cba'` and the subclass
      injector `'cbacba'`. */
  lemma NestedDecoration(base: ClassId, sub: ClassId, baseMro: seq<ClassId>, c: Caches<Option<string>, nat, string>, f: Factory<nat, string>)
    requires sub != base && sub !in baseMro && base !in baseMro
    requires Some("it") !in c.instances && f.Materialize().Ok?
    requires f.bindGet(f.Materialize().value).None? && f.get(f.Materialize().value, None) == Ok("abc")
    ensures var reg := NestedRegistry(base, sub);
      && HandleProvider(Decorations([base] + baseMro, reg, ScenarioRun), c, f, "it", "'it'", Some("it"), None).result == Ok("cba")
      && HandleProvider(Decorations([sub, base] + baseMro, reg, ScenarioRun), c, f, "it", "'it'", Some("it"), None).result == Ok("cbacba")
  {
    NestedIteration(base, sub, baseMro);
    ReverseThenDouble();
    var es := [Entry(Decorate, 1)];
    assert es[1..] == [];
    assert DecoratorsApply(es, ScenarioRun, "abc").value == "cba";
  }

  const GenieFoo: Key<Option<string>> := Key(Some("genie"), Some("foo"))

  /** `decorate('genie:foo', double)` registers under the named key. */
  lemma DecorateNamedRegisters(cls: ClassId)
    ensures DecorateOn(map[], cls, JeniParse, "genie:foo", Some(2), []) ==
      Ok(Registered(Append(map[], cls, GenieFoo, Entry(Decorate, 2)), 2))
  {
    ParseNoteRoundTrip("genie", "foo");
    assert "genie:foo" == "genie" + ":" + "foo";
  }

  /** A decorator registered under `'genie:foo'` decorates that named value
      only: `'foo'` becomes `'foofoo'`, while any other name and the unnamed
      `'genie'` pass through undecorated. */
  lemma DecorateNamedOnly(cls: ClassId, other: Option<string>, v: string)
    requires other != Some("foo")
    ensures var d := Decorations([cls], Append(map[], cls, GenieFoo, Entry(Decorate, 2)), ScenarioRun);
      && Decorated(d, Some("genie"), Some("foo"), "foo") == "foofoo"
      && Decorated(d, Some("genie"), other, v) == v
  {
    var reg := Append(map[], cls, GenieFoo, Entry(Decorate, 2));
    assert [cls][1..] == [];
    assert DecoratorsIter(reg, [cls], GenieFoo) == [Entry(Decorate, 2)];
    assert DecoratorsIter(reg, [cls], Key(Some("genie"), other)) == [];
    var es := [Entry(Decorate, 2)];
    assert es[1..] == [];
  }

  lemma {:induction false} NoEntriesIter<B(!new)>(reg: Registry<B>, mro: seq<ClassId>, key: Key<B>)
    requires forall c | c in mro :: Own(reg, c, key) == []
    ensures DecoratorsIter(reg, mro, key) == []
    decreases |mro|
  {
    if mro != [] {
      NoEntriesIter(reg, mro[1..], key);
    }
  }
}

=== FILE: notes.dfy ===
/** Note syntax of `BaseProvider`: splitting `'object:name'`, the accessor
    naming convention `get_<object>` and the close-method convention
    `close_<anything>`. */
module Notes {
  import opened Common

  /** The two groups of the note pattern `([^:]*):?(.*)`, each `None` when the
      group matched the empty string. */
  datatype ParsedNote = ParsedNote(base: Option<string>, name: Option<string>)

  const AccessorPrefix: string := "get_"
  const ClosePrefix: string := "close_"

  /** The text of an optional group; `None` reads as the empty match. */
  function Text(g: Option<string>): string {
    match g
    case None => ""
    case Some(s) => s
  }

  /** `group or None`: the empty string is falsy and becomes `None`. */
  function NoneIfEmpty(s: string): (g: Option<string>)
    ensures Text(g) == s
    ensures g.Some? ==> g.value != ""
  {
    if s == "" then None else Some(s)
  }

  /** Python truthiness of an optional string. */
  predicate Truthy(g: Option<string>) {
    g.Some? && g.value != ""
  }

  /** Index of the first `c` in `s`, or `|s|` when `c` does not occur. */
  function FirstIndexOf(s: string, c: char): (k: nat)
    ensures k <= |s|
    ensures forall i :: 0 <= i < k ==> s[i] != c
    ensures k < |s| ==> s[k] == c
  {
    if |s| == 0 then 0
    else if s[0] == c then 0
    else 1 + FirstIndexOf(s[1..], c)
  }

  /** `re_note.match(note)` followed by `group or None` on both groups. The
      first group `[^:]*` is greedy and also matches newlines, so it takes
      everything up to the first colon. The optional colon is then consumed.
      The second group `.*` does not match a newline, so the name stops at
      the first newline after the colon. */
  function ParseNote(note: string): (p: ParsedNote)
    ensures p.base.Some? ==> p.base.value != ""
    ensures p.name.Some? ==> p.name.value != "" && '\n' !in p.name.value
    ensures p.name.Some? ==> ':' in note
  {
    var k := FirstIndexOf(note, ':');
    var rest := if k < |note| then note[k + 1..] else "";
    ParsedNote(NoneIfEmpty(note[..k]), NoneIfEmpty(rest[..FirstIndexOf(rest, '\n')]))
  }

  /** `accessor_pattern.format(object_name)` with pattern `'get_{}'`; a missing
      object name formats as the text `None`. */
  function AccessorName(base: Option<string>): (r: string)
    ensures |r| >= |AccessorPrefix| && r[..|AccessorPrefix|] == AccessorPrefix
    ensures base.Some? ==> r[|AccessorPrefix|..] == base.value
    ensures base.None? ==> r == "get_None"
  {
    match base
    case None => AccessorPrefix + "None"
    case Some(b) => AccessorPrefix + b
  }

  /** `re_close_method.search(name) is not None` with pattern `^close_.*`:
      without MULTILINE, `^` anchors at the start of the string only, and
      `.*` matches the empty string, so whatever follows `close_` is
      accepted, newlines included. */
  predicate IsCloseMethod(name: string)
    ensures IsCloseMethod(name) <==> exists rest: string :: name == ClosePrefix + rest
  {
    if |name| >= |ClosePrefix| && name[..|ClosePrefix|] == ClosePrefix then
      assert name == ClosePrefix + name[|ClosePrefix|..];
      true
    else false
  }

  /** No accessor is a close method, whatever the note: `close` never calls a
      `get_*` accessor unless `before_close` names it. */
  lemma AccessorNeverCloseMethod(base: Option<string>)
    ensures !IsCloseMethod(AccessorName(base))
  {
    var r := AccessorName(base);
    assert r[0] == 'g';
    if |r| >= |ClosePrefix| {
      assert r[..|ClosePrefix|][0] == 'g';
    }
  }

  /** The base is the longest colon-free prefix of the note: it is a prefix,
      holds no colon, and either is the whole note or stops at a colon. */
  lemma {:induction false} ParseBaseIsLongestColonFreePrefix(note: string)
    ensures var b := Text(ParseNote(note).base);
      && b <= note
      && ':' !in b
      && (|b| == |note| || note[|b|] == ':')
  {
    var k := FirstIndexOf(note, ':');
    assert Text(ParseNote(note).base) == note[..k];
  }

  /** Without a colon there is no name; with one, the name is the text after
      the first colon, up to (excluding) the first newline. */
  lemma {:induction false} ParseNameFollowsFirstColon(note: string)
    ensures ':' !in note ==> ParseNote(note).name == None
    ensures ':' in note ==>
      var rest := note[FirstIndexOf(note, ':') + 1..];
      Text(ParseNote(note).name) == rest[..FirstIndexOf(rest, '\n')]
  {
    var k := FirstIndexOf(note, ':');
    if ':' !in note {
      assert k == |note|;
    } else {
      assert k < |note| by {
        var i :| 0 <= i < |note| && note[i] == ':';
      }
    }
  }

  /** Splitting a composed note gives back its parts, as long as the base holds
      no colon and the name holds no newline (the name may hold colons). */
  lemma {:induction false} ParseNoteRoundTrip(b: string, n: string)
    requires b != "" && ':' !in b
    requires n != "" && '\n' !in n
    ensures ParseNote(b + ":" + n) == ParsedNote(Some(b), Some(n))
  {
    var s := b + ":" + n;
    var k := FirstIndexOf(s, ':');
    assert s[|b|] == ':';
    assert k == |b|;
    assert s[..k] == b;
    var rest := s[k + 1..];
    assert rest == n;
    var m := FirstIndexOf(rest, '\n');
    assert m == |n|;
    assert rest[..m] == n;
  }

  /** A non-empty note without a colon is all base and no name. */
  lemma {:induction false} ParseNoteWithoutColon(note: string)
    requires note != "" && ':' !in note
    ensures ParseNote(note) == ParsedNote(Some(note), None)
  {
    var k := FirstIndexOf(note, ':');
    assert k == |note|;
    assert note[..k] == note;
  }

  /** The empty note and a note starting with a colon have no base; their
      accessor is `get_None`. */
  lemma ParseNoteMissingBase(name: string)
    ensures ParseNote("").base == None
    ensures ParseNote(":" + name).base == None
    ensures AccessorName(ParseNote(":" + name).base) == "get_None"
  {
    assert FirstIndexOf(":" + name, ':') == 0;
  }

  /** The name group does not cross a newline: `'a:b\nc'` names `'b'`. */
  lemma ParseNoteStopsNameAtNewline()
    ensures ParseNote("a:b\nc") == ParsedNote(Some("a"), Some("b"))
  {
    var s := "a:b\nc";
    assert FirstIndexOf(s, ':') == 1;
    var rest := s[2..];
    assert rest == "b\nc";
    assert FirstIndexOf(rest, '\n') == 1;
    assert rest[..1] == "b";
    assert s[..1] == "a";
  }
}

=== FILE: providers.dfy ===
/** Provider instances of `BaseProvider` as explicit data: attribute lookup
    with the `extends` fallback, `extend`/`unextend`, and the resolution of
    notes into accessor calls (`resolve_note`, `resolve_notes`). */
module Providers {
  import opened Common
  import opened Notes

  type ProviderId = nat
  type MethodId = nat

  /** An attribute as `getattr` returns it: a method (bound method or
      function), another callable (a class, a builtin, a `functools.partial`,
      an object with `__call__`), or a value that cannot be called. */
  datatype Attr = Method(id: MethodId) | OtherCallable(id: MethodId) | Data
  {
    predicate IsCallable() {
      !Data?
    }
  }

  /** One provider instance: the attributes it has itself (instance and class
      attributes, as `dir` lists them, other than `extends`) and its `extends`
      list, `None` while that attribute was never set. */
  datatype ProviderObj = ProviderObj(attrs: map<string, Attr>, extensions: Option<seq<ProviderId>>)

  /** All provider instances, by identity. */
  type Heap = map<ProviderId, ProviderObj>

  const ExtendsAttr: string := "extends"
  const NotInList: string := "list.remove(x): x not in list"

  /** `getattr(self, 'extends', [])`. */
  function ExtendsOf(o: ProviderObj): seq<ProviderId> {
    match o.extensions
    case None => []
    case Some(ps) => ps
  }

  /** Every extended provider is itself in the heap. */
  predicate Closed(h: Heap) {
    forall p | p in h :: forall q | q in ExtendsOf(h[p]) :: q in h
  }

  /** Outcomes of `getattr(provider, name)` on which `__getattr__` moves on to
      the next extended provider: a missing attribute, or an attribute that is
      neither a bound method nor a function (even when it is callable). */
  predicate Skippable(r: Result<Attr>) {
    (r.Ok? && !r.value.Method?) || (r.Err? && r.error.AttributeError?)
  }

  /** `getattr(self, name)`: the provider's own attribute first; otherwise
      (`__getattr__`) `extends` is never looked up in extensions, and any other
      name is taken from the first extended provider that yields a method for
      it. `fuel` bounds the depth of the extension chain; when it runs out
      while extensions remain, the call fails as Python does when the chain is
      cyclic. */
  function GetAttr(h: Heap, p: ProviderId, name: string, fuel: nat): (r: Result<Attr>)
    requires p in h && Closed(h)
    ensures name in h[p].attrs && name != ExtendsAttr ==> r == Ok(h[p].attrs[name])
    ensures name == ExtendsAttr ==> (r.Ok? <==> h[p].extensions.Some?)
    ensures name !in h[p].attrs && ExtendsOf(h[p]) == [] && name != ExtendsAttr ==> r == Err(AttributeError(name))
    decreases fuel, 0, 0
  {
    var o := h[p];
    if name == ExtendsAttr then
      if o.extensions.Some? then Ok(Data) else Err(AttributeError(name))
    else if name in o.attrs then Ok(o.attrs[name])
    else if ExtendsOf(o) == [] then Err(AttributeError(name))
    else if fuel == 0 then Err(RecursionError)
    else FromExtensions(h, ExtendsOf(o), name, fuel - 1)
  }

  /** A name the provider lacks (other than `extends`) is an
      `AttributeError` without extensions, and is otherwise looked up in its
      extensions, one level of fuel deeper; with no fuel left the lookup
      fails as a cyclic chain does in Python. Kept apart from `GetAttr`'s
      contract so that its instances do not feed each other through
      `FromExtensions`. */
  lemma GetAttrFromExtensions(h: Heap, p: ProviderId, name: string, fuel: nat)
    requires p in h && Closed(h)
    requires name != ExtendsAttr && name !in h[p].attrs
    ensures ExtendsOf(h[p]) == [] ==> GetAttr(h, p, name, fuel) == Err(AttributeError(name))
    ensures ExtendsOf(h[p]) != [] && fuel == 0 ==> GetAttr(h, p, name, fuel) == Err(RecursionError)
    ensures ExtendsOf(h[p]) != [] && fuel > 0 ==> GetAttr(h, p, name, fuel) == FromExtensions(h, ExtendsOf(h[p]), name, fuel - 1)
  {
  }

  /** The loop of `__getattr__` over the extended providers, in list order. */
  function FromExtensions(h: Heap, ps: seq<ProviderId>, name: string, fuel: nat): (r: Result<Attr>)
    requires Closed(h) && forall q | q in ps :: q in h
    ensures r.Ok? ==> r.value.Method?
    ensures r.Ok? ==> exists i :: 0 <= i < |ps| && GetAttr(h, ps[i], name, fuel) == r
    ensures (forall i | 0 <= i < |ps| :: Skippable(GetAttr(h, ps[i], name, fuel))) ==> r == Err(AttributeError(name))
    decreases fuel, 1, |ps|
  {
    if ps == [] then Err(AttributeError(name))
    else
      var r0 := GetAttr(h, ps[0], name, fuel);
      if Skippable(r0) then
        var rest := FromExtensions(h, ps[1..], name, fuel);
        assert forall i | 1 <= i < |ps| :: ps[i] == ps[1..][i - 1];
        rest
      else r0
  }

  /** The first extended provider whose lookup is not skippable decides: its
      method is the answer, or its error (other than `AttributeError`) ends
      the loop. */
  lemma {:induction false} FromExtensionsFirstDecides(h: Heap, ps: seq<ProviderId>, name: string, fuel: nat, k: nat)
    requires Closed(h) && forall q | q in ps :: q in h
    requires k < |ps| && !Skippable(GetAttr(h, ps[k], name, fuel))
    requires forall j | 0 <= j < k :: Skippable(GetAttr(h, ps[j], name, fuel))
    ensures FromExtensions(h, ps, name, fuel) == GetAttr(h, ps[k], name, fuel)
    decreases k
  {
    if k > 0 {
      assert forall j | 0 <= j < k - 1 :: ps[1..][j] == ps[j + 1];
      FromExtensionsFirstDecides(h, ps[1..], name, fuel, k - 1);
    }
  }

  /** Extensions are tried in order: once the first providers settle a name,
      later ones do not matter; when none of them has it, the name comes from
      the providers appended after them. */
  lemma {:induction false} FromExtensionsAppend(h: Heap, xs: seq<ProviderId>, ys: seq<ProviderId>, name: string, fuel: nat)
    requires Closed(h)
    requires forall q | q in xs :: q in h
    requires forall q | q in ys :: q in h
    ensures var rx := FromExtensions(h, xs, name, fuel);
      FromExtensions(h, xs + ys, name, fuel) ==
        if Skippable(rx) && rx.Err? && rx.error.AttributeError? then FromExtensions(h, ys, name, fuel) else rx
    decreases |xs|
  {
    if xs == [] {
      assert xs + ys == ys;
    } else {
      assert (xs + ys)[1..] == xs[1..] + ys;
      FromExtensionsAppend(h, xs[1..], ys, name, fuel);
    }
  }

  /** `getattr(self, name)` followed by a call: the callable to call, or the
      error of looking it up, or a `TypeError` for a non-callable attribute.
      Any callable the provider has itself can be called; one reached through
      an extension is always a method. */
  function Callable(h: Heap, p: ProviderId, name: string, fuel: nat): (r: Result<MethodId>)
    requires p in h && Closed(h)
    ensures r.Ok? <==> GetAttr(h, p, name, fuel).Ok? && GetAttr(h, p, name, fuel).value.IsCallable()
    ensures r.Ok? ==> GetAttr(h, p, name, fuel).value.id == r.value
    ensures GetAttr(h, p, name, fuel) == Ok(Data) ==> r == Err(TypeError(name))
    ensures GetAttr(h, p, name, fuel).Err? ==> r == Err(GetAttr(h, p, name, fuel).error)
  {
    match GetAttr(h, p, name, fuel)
    case Ok(Data) => Err(TypeError(name))
    case Ok(a) => Ok(a.id)
    case Err(e) => Err(e)
  }

  /** `extend(*providers)`: appends to the extension list, creating it on
      first use. */
  function Extend(o: ProviderObj, ps: seq<ProviderId>): (o': ProviderObj)
    ensures o'.attrs == o.attrs
    ensures o'.extensions.Some?
    ensures |ExtendsOf(o')| == |ExtendsOf(o)| + |ps|
    ensures ExtendsOf(o')[..|ExtendsOf(o)|] == ExtendsOf(o) && ExtendsOf(o')[|ExtendsOf(o)|..] == ps
  {
    o.(extensions := Some(ExtendsOf(o) + ps))
  }

  /** The outcome of removing elements one by one with `list.remove`: the
      list as left, and whether a removal failed. */
  datatype Removal = Removal(rest: seq<ProviderId>, failed: bool)

  /** Index of the first `p` in `xs`, or `|xs|` when `p` does not occur. */
  function FirstPosition(xs: seq<ProviderId>, p: ProviderId): (k: nat)
    ensures k <= |xs|
    ensures forall j | 0 <= j < k :: xs[j] != p
    ensures k < |xs| <==> p in xs
    ensures k < |xs| ==> xs[k] == p
  {
    if xs == [] then 0
    else if xs[0] == p then 0
    else 1 + FirstPosition(xs[1..], p)
  }

  /** `list.remove(p)`: drops one occurrence of `p`; which one, and that the
      others keep their order, is `RemoveFirstDropsFirstOccurrence`. */
  function RemoveFirst(xs: seq<ProviderId>, p: ProviderId): (r: seq<ProviderId>)
    requires p in xs
    ensures |r| == |xs| - 1
    ensures multiset(r) == multiset(xs) - multiset{p}
  {
    assert xs == [xs[0]] + xs[1..];
    if xs[0] == p then xs[1..]
    else [xs[0]] + RemoveFirst(xs[1..], p)
  }

  /** `list.remove(p)` drops the first occurrence of `p` and keeps every
      other element, in order. */
  lemma {:induction false} RemoveFirstDropsFirstOccurrence(xs: seq<ProviderId>, p: ProviderId)
    requires p in xs
    ensures var k := FirstPosition(xs, p);
      k < |xs| && RemoveFirst(xs, p) == xs[..k] + xs[k + 1..]
    decreases |xs|
  {
    if xs[0] == p {
      assert FirstPosition(xs, p) == 0;
      assert xs[..0] + xs[1..] == xs[1..];
    } else {
      assert p in xs[1..] by {
        assert xs == [xs[0]] + xs[1..];
      }
      RemoveFirstDropsFirstOccurrence(xs[1..], p);
      var i := FirstPosition(xs[1..], p);
      assert FirstPosition(xs, p) == i + 1;
      assert RemoveFirst(xs, p) == [xs[0]] + (xs[1..][..i] + xs[1..][i + 1..]);
      ConsSlices(xs, i);
    }
  }

  lemma ConsSlices(xs: seq<ProviderId>, i: nat)
    requires i + 1 < |xs|
    ensures [xs[0]] + (xs[1..][..i] + xs[1..][i + 1..]) == xs[..i + 1] + xs[i + 2..]
  {
    assert xs[..i + 1] == [xs[0]] + xs[1..][..i];
    assert xs[i + 2..] == xs[1..][i + 1..];
  }

  /** `for provider in providers: extends.remove(provider)`: stops at the
      first provider that is not in the list, keeping the removals already
      done (the list is changed in place). */
  function RemoveEach(xs: seq<ProviderId>, ps: seq<ProviderId>): (r: Removal)
    ensures !r.failed ==> multiset(ps) <= multiset(xs) && multiset(r.rest) == multiset(xs) - multiset(ps)
    ensures r.failed <==> !(multiset(ps) <= multiset(xs))
    decreases |ps|
  {
    if ps == [] then Removal(xs, false)
    else if ps[0] !in xs then
      assert ps[0] in multiset(ps);
      Removal(xs, true)
    else
      var r := RemoveEach(RemoveFirst(xs, ps[0]), ps[1..]);
      assert ps == [ps[0]] + ps[1..];
      MultisetRemoveOne(multiset(xs), multiset(ps[1..]), ps[0]);
      r
  }

  /** Removing `x` and then `b` from `a` (which holds `x`) is removing `{x} + b`. */
  lemma MultisetRemoveOne(a: multiset<ProviderId>, b: multiset<ProviderId>, x: ProviderId)
    requires x in a
    ensures multiset{x} + b <= a <==> b <= a - multiset{x}
    ensures (a - multiset{x}) - b == a - (multiset{x} + b)
  {
  }

  /** `unextend(*providers)`: the provider as left and the `ValueError`
      raised when a provider was not extended. On failure an existing list
      keeps the removals made before the failing one; a missing list stays
      missing. */
  function Unextend(o: ProviderObj, ps: seq<ProviderId>): (r: (ProviderObj, Option<Error>))
    ensures r.0.attrs == o.attrs
    ensures r.1.None? <==> multiset(ps) <= multiset(ExtendsOf(o))
    ensures r.1.None? ==> r.0.extensions.Some? && multiset(ExtendsOf(r.0)) == multiset(ExtendsOf(o)) - multiset(ps)
    ensures r.1.Some? ==> r.1.value == ValueError(NotInList) && (o.extensions.None? ==> r.0 == o)
  {
    var removal := RemoveEach(ExtendsOf(o), ps);
    if !removal.failed then (o.(extensions := Some(removal.rest)), None)
    else if o.extensions.None? then (o, Some(ValueError(NotInList)))
    else (o.(extensions := Some(removal.rest)), Some(ValueError(NotInList)))
  }

  /** `unextend` undoes `extend` of providers that were not already
      extended: the extension list is back to what it was. */
  lemma {:induction false} UnextendUndoesExtend(o: ProviderObj, ps: seq<ProviderId>)
    requires forall q | q in ps :: q !in ExtendsOf(o)
    ensures Unextend(Extend(o, ps), ps) == (o.(extensions := Some(ExtendsOf(o))), None)
  {
    RemoveEachAppended(ExtendsOf(o), ps);
  }

  lemma {:induction false} RemoveEachAppended(xs: seq<ProviderId>, ps: seq<ProviderId>)
    requires forall q | q in ps :: q !in xs
    ensures RemoveEach(xs + ps, ps) == Removal(xs, false)
    decreases |ps|
  {
    if ps != [] {
      RemoveFirstAfterPrefix(xs, ps);
      assert forall q | q in ps[1..] :: q in ps;
      RemoveEachAppended(xs, ps[1..]);
    } else {
      assert xs + ps == xs;
    }
  }

  lemma RemoveFirstAfterPrefix(xs: seq<ProviderId>, ps: seq<ProviderId>)
    requires ps != [] && ps[0] !in xs
    ensures ps[0] in xs + ps
    ensures RemoveFirst(xs + ps, ps[0]) == xs + ps[1..]
  {
    var ys := xs + ps;
    assert ys[|xs|] == ps[0];
    var k := FirstPosition(ys, ps[0]);
    assert forall j | 0 <= j < |xs| :: ys[j] == xs[j];
    assert k == |xs|;
    RemoveFirstDropsFirstOccurrence(ys, ps[0]);
    assert ys[..k] == xs && ys[k + 1..] == ps[1..];
  }

  /** When a provider is extended twice, `unextend` removes its earlier
      entry, so the order in which extensions are consulted changes:
      `[1, 2]`, extended by `1`, then unextended by `1`, gives `[2, 1]`. */
  lemma UnextendRemovesEarliestEntry()
    ensures var o := ProviderObj(map[], Some([1, 2]));
      Unextend(Extend(o, [1]), [1]) == (ProviderObj(map[], Some([2, 1])), None)
  {
    var xs: seq<ProviderId> := [1, 2] + [1];
    assert RemoveFirst(xs, 1) == [2, 1];
    assert RemoveEach(xs, [1]) == RemoveEach([2, 1], []);
  }

  /** Removing a concatenation removes the first part, then (unless that
      failed) the second part from what is left. */
  lemma {:induction false} RemoveEachConcat(xs: seq<ProviderId>, ps1: seq<ProviderId>, ps2: seq<ProviderId>)
    ensures var r1 := RemoveEach(xs, ps1);
      RemoveEach(xs, ps1 + ps2) == if r1.failed then r1 else RemoveEach(r1.rest, ps2)
    decreases |ps1|
  {
    if ps1 == [] {
      assert ps1 + ps2 == ps2;
    } else {
      assert (ps1 + ps2)[0] == ps1[0];
      assert (ps1 + ps2)[1..] == ps1[1..] + ps2;
      if ps1[0] in xs {
        RemoveEachConcat(RemoveFirst(xs, ps1[0]), ps1[1..], ps2);
      }
    }
  }

  /** `unextend` removes the providers one at a time, in argument order,
      each with `list.remove` on the list the earlier ones left. A provider
      that is not there raises `ValueError` and leaves an existing list as
      the earlier removals left it; later providers are not looked at. */
  lemma UnextendOneMore(o: ProviderObj, ps: seq<ProviderId>, q: ProviderId)
    ensures var (o1, e1) := Unextend(o, ps);
      e1.Some? ==> Unextend(o, ps + [q]) == Unextend(o, ps)
    ensures var (o1, e1) := Unextend(o, ps);
      e1.None? ==>
        Unextend(o, ps + [q]) ==
          if q in ExtendsOf(o1) then (o1.(extensions := Some(RemoveFirst(ExtendsOf(o1), q))), None)
          else (if o.extensions.None? then o else o1, Some(ValueError(NotInList)))
  {
    RemoveEachOneMore(ExtendsOf(o), ps, q);
  }

  lemma RemoveEachOneMore(xs: seq<ProviderId>, ps: seq<ProviderId>, q: ProviderId)
    ensures var r1 := RemoveEach(xs, ps);
      RemoveEach(xs, ps + [q]) ==
        if r1.failed then r1
        else if q in r1.rest then Removal(RemoveFirst(r1.rest, q), false)
        else Removal(r1.rest, true)
  {
    RemoveEachConcat(xs, ps, [q]);
    RemoveEachSingle(RemoveEach(xs, ps).rest, q);
  }

  lemma RemoveEachSingle(xs: seq<ProviderId>, q: ProviderId)
    ensures RemoveEach(xs, [q]) == if q in xs then Removal(RemoveFirst(xs, q), false) else Removal(xs, true)
  {
    assert [q][1..] == [];
    if q in xs {
      assert RemoveEach(xs, [q]) == RemoveEach(RemoveFirst(xs, q), []);
    }
  }

  // ---------------------------------------------------------------------
  // Resolving notes

  /** How an accessor is called: with no arguments, or with `name=`. */
  datatype Call = NoArgs | WithName(name: string)

  /** What an accessor returns: a value (possibly Python's `None`), or the
      `UNSET` sentinel. */
  datatype Resolved<V> = Provided(value: V) | Unset

  /** The provider resolving notes, and what each of its methods returns
      when called. */
  datatype Context<V> = Context(
    heap: Heap,
    self: ProviderId,
    run: (MethodId, Call) -> Resolved<V>,
    fuel: nat,
    selfText: string)
  {
    predicate Valid() {
      self in heap && Closed(heap)
    }
  }

  /** The accessor name and call shape `resolve_note` uses for a note. */
  function AccessorCall(note: string): (string, Call) {
    var p := ParseNote(note);
    (AccessorName(p.base), if Truthy(p.name) then WithName(p.name.value) else NoArgs)
  }

  /** The accessor is `get_<base>`; it gets `name=` exactly when the note
      names one. */
  lemma AccessorCallShape(note: string)
    ensures AccessorCall(note).0 == AccessorName(ParseNote(note).base)
    ensures AccessorCall(note).1.WithName? <==> ParseNote(note).name.Some?
    ensures AccessorCall(note).1.WithName? ==> ParseNote(note).name == Some(AccessorCall(note).1.name)
  {
  }

  /** A composed note `b:n` calls `get_b(name=n)`; a bare note `b` calls
      `get_b()`. */
  lemma AccessorCallOfComposedNote(b: string, n: string)
    requires b != "" && ':' !in b
    ensures n != "" && '\n' !in n ==> AccessorCall(b + ":" + n) == (AccessorPrefix + b, WithName(n))
    ensures AccessorCall(b) == (AccessorPrefix + b, NoArgs)
  {
    if n != "" && '\n' !in n {
      ParseNoteRoundTrip(b, n);
    }
    ParseNoteWithoutColon(b);
  }

  /** `resolve_note`: looks up the accessor and calls it. */
  function ResolveNote<V>(ctx: Context<V>, note: string): (r: Result<Resolved<V>>)
    requires ctx.Valid()
    ensures var m := Callable(ctx.heap, ctx.self, AccessorCall(note).0, ctx.fuel);
      && (r.Ok? <==> m.Ok?)
      && (r.Ok? ==> r.value == ctx.run(m.value, AccessorCall(note).1))
      && (r.Err? ==> r.error == m.error)
  {
    var (acc, call) := AccessorCall(note);
    var m :- Callable(ctx.heap, ctx.self, acc, ctx.fuel);
    Ok(ctx.run(m, call))
  }

  /** The outcome of resolving each note on its own, in note order. */
  function ResolveEach<V>(ctx: Context<V>, notes: seq<string>): (rs: seq<Result<Resolved<V>>>)
    requires ctx.Valid()
    ensures |rs| == |notes| && forall i | 0 <= i < |notes| :: rs[i] == ResolveNote(ctx, notes[i])
  {
    seq(|notes|, i requires 0 <= i < |notes| => ResolveNote(ctx, notes[i]))
  }

  /** Index of the first failed outcome, or the number of outcomes when none
      failed. */
  function FirstErr<T>(rs: seq<Result<T>>): (k: nat)
    ensures k <= |rs|
    ensures forall j | 0 <= j < k :: rs[j].Ok?
    ensures k < |rs| ==> rs[k].Err?
  {
    if rs == [] then 0
    else if rs[0].Err? then 0
    else 1 + FirstErr(rs[1..])
  }

  /** Evaluates outcomes in order, stopping at the first failure, whose error
      it returns; otherwise all the values, in order. */
  function Collect<T>(rs: seq<Result<T>>): (r: Result<seq<T>>)
    ensures r.Ok? <==> forall i | 0 <= i < |rs| :: rs[i].Ok?
    ensures r.Ok? ==> |r.value| == |rs| && forall i | 0 <= i < |rs| :: rs[i] == Ok(r.value[i])
    ensures r.Err? ==> FirstErr(rs) < |rs| && rs[FirstErr(rs)] == Err(r.error)
  {
    if rs == [] then Ok([])
    else
      var first :- rs[0];
      var rest :- Collect(rs[1..]);
      Ok([first] + rest)
  }

  /** Index of the first note whose resolution fails, or the number of notes
      when none does. */
  function FirstFailing<V>(ctx: Context<V>, notes: seq<string>): (k: nat)
    requires ctx.Valid()
    ensures k <= |notes|
    ensures forall j | 0 <= j < k :: ResolveNote(ctx, notes[j]).Ok?
    ensures k < |notes| ==> ResolveNote(ctx, notes[k]).Err?
  {
    FirstErr(ResolveEach(ctx, notes))
  }

  /** Resolves notes in order; the first failing note's error propagates. */
  function ResolveAll<V>(ctx: Context<V>, notes: seq<string>): (r: Result<seq<Resolved<V>>>)
    requires ctx.Valid()
    ensures r.Ok? <==> forall i | 0 <= i < |notes| :: ResolveNote(ctx, notes[i]).Ok?
    ensures r.Ok? ==> |r.value| == |notes|
    ensures r.Ok? ==> forall i | 0 <= i < |notes| :: ResolveNote(ctx, notes[i]) == Ok(r.value[i])
    ensures r.Err? ==> FirstFailing(ctx, notes) < |notes| && ResolveNote(ctx, notes[FirstFailing(ctx, notes)]) == Err(r.error)
  {
    Collect(ResolveEach(ctx, notes))
  }

  /** Index of the first `UNSET`, or the length when there is none. */
  function FirstUnset<V>(rs: seq<Resolved<V>>): (k: nat)
    ensures k <= |rs|
    ensures forall i | 0 <= i < k :: rs[i].Provided?
    ensures k < |rs| ==> rs[k] == Unset
  {
    if rs == [] then 0
    else if rs[0].Unset? then 0
    else 1 + FirstUnset(rs[1..])
  }

  function Values<V>(rs: seq<Resolved<V>>): (vs: seq<V>)
    requires forall i | 0 <= i < |rs| :: rs[i].Provided?
    ensures |vs| == |rs| && forall i | 0 <= i < |rs| :: rs[i] == Provided(vs[i])
  {
    if rs == [] then [] else [rs[0].value] + Values(rs[1..])
  }

  /** The keyword arguments kept: every key whose value is not `UNSET`, in the
      order of the keyword notes. */
  function KeepProvided<V>(keys: seq<string>, rs: seq<Resolved<V>>): (kw: seq<(string, V)>)
    requires |keys| == |rs|
    ensures |kw| <= |keys|
    ensures forall j | 0 <= j < |kw| :: exists i | 0 <= i < |keys| :: keys[i] == kw[j].0 && rs[i] == Provided(kw[j].1)
    ensures forall i | 0 <= i < |keys| && rs[i].Provided? :: (keys[i], rs[i].value) in kw
    ensures NoDuplicates(keys) ==> UniqueKeys(kw)
  {
    if keys == [] then []
    else
      var rest := KeepProvided(keys[1..], rs[1..]);
      assert forall i | 1 <= i < |keys| :: keys[i] == keys[1..][i - 1] && rs[i] == rs[1..][i - 1];
      if rs[0].Provided? then [(keys[0], rs[0].value)] + rest else rest
  }

  /** No keyword occurs twice, as in a Python `dict`. */
  predicate UniqueKeys<V>(kw: seq<(string, V)>) {
    forall a, b | 0 <= a < b < |kw| :: kw[a].0 != kw[b].0
  }

  function KeysOf<T>(kv: seq<(string, T)>): (ks: seq<string>)
    ensures |ks| == |kv| && forall i | 0 <= i < |kv| :: ks[i] == kv[i].0
  {
    if kv == [] then [] else [kv[0].0] + KeysOf(kv[1..])
  }

  function NotesOf(kv: seq<(string, string)>): (ns: seq<string>)
    ensures |ns| == |kv| && forall i | 0 <= i < |kv| :: ns[i] == kv[i].1
  {
    if kv == [] then [] else [kv[0].1] + NotesOf(kv[1..])
  }

  /** The message of the `UnsetError` for a positional note. */
  function UnableMessage(selfText: string, note: string): string {
    "'" + selfText + "' is unable to provide '" + note + "'."
  }

  /** The arguments built for an annotated callable: positional values in
      note order, and the keyword values that are set. */
  datatype Arguments<V> = Arguments(args: seq<V>, kwargs: seq<(string, V)>)

  /** `resolve_notes`: resolves every positional note, then every keyword
      note, and only then rejects an `UNSET` positional value, naming the
      first such note. `UNSET` keyword values are dropped. */
  function ResolveNotes<V>(ctx: Context<V>, notes: seq<string>, keywordNotes: seq<(string, string)>): (r: Result<Arguments<V>>)
    requires ctx.Valid()
    ensures r.Ok? ==> |r.value.args| == |notes| && |r.value.kwargs| <= |keywordNotes|
    ensures r.Ok? ==> forall i | 0 <= i < |notes| :: ResolveNote(ctx, notes[i]) == Ok(Provided(r.value.args[i]))
  {
    var args :- ResolveAll(ctx, notes);
    var kwargs :- ResolveAll(ctx, NotesOf(keywordNotes));
    var k := FirstUnset(args);
    if k < |args| then Err(UnsetError(UnableMessage(ctx.selfText, notes[k]), None))
    else Ok(Arguments(Values(args), KeepProvided(KeysOf(keywordNotes), kwargs)))
  }

  /** All notes resolvable, a positional one `UNSET`: `UnsetError` naming the
      first such note. No keyword value can cause it. */
  lemma ResolveNotesPositionalUnset<V>(ctx: Context<V>, notes: seq<string>, keywordNotes: seq<(string, string)>, k: nat)
    requires ctx.Valid()
    requires forall i | 0 <= i < |notes| :: ResolveNote(ctx, notes[i]).Ok?
    requires forall i | 0 <= i < |keywordNotes| :: ResolveNote(ctx, keywordNotes[i].1).Ok?
    requires k < |notes| && ResolveNote(ctx, notes[k]) == Ok(Unset)
    requires forall i | 0 <= i < k :: ResolveNote(ctx, notes[i]) != Ok(Unset)
    ensures ResolveNotes(ctx, notes, keywordNotes) == Err(UnsetError(UnableMessage(ctx.selfText, notes[k]), None))
  {
    var ns := NotesOf(keywordNotes);
    assert forall i | 0 <= i < |ns| :: ResolveNote(ctx, ns[i]).Ok?;
    var args := ResolveAll(ctx, notes).value;
    assert FirstUnset(args) == k;
  }

  /** All notes resolvable and no positional one `UNSET`: the call succeeds
      with one value per positional note, in order, and exactly the keywords
      whose value is set. */
  lemma ResolveNotesSucceeds<V>(ctx: Context<V>, notes: seq<string>, keywordNotes: seq<(string, string)>)
    requires ctx.Valid()
    requires forall i | 0 <= i < |notes| :: ResolveNote(ctx, notes[i]).Ok? && ResolveNote(ctx, notes[i]).value.Provided?
    requires forall i | 0 <= i < |keywordNotes| :: ResolveNote(ctx, keywordNotes[i].1).Ok?
    ensures var r := ResolveNotes(ctx, notes, keywordNotes);
      && r.Ok?
      && |r.value.args| == |notes|
      && (forall i | 0 <= i < |notes| :: ResolveNote(ctx, notes[i]) == Ok(Provided(r.value.args[i])))
      && (forall j | 0 <= j < |r.value.kwargs| :: exists i | 0 <= i < |keywordNotes| ::
            keywordNotes[i].0 == r.value.kwargs[j].0 && ResolveNote(ctx, keywordNotes[i].1) == Ok(Provided(r.value.kwargs[j].1)))
      && (forall i | 0 <= i < |keywordNotes| && ResolveNote(ctx, keywordNotes[i].1).value.Provided? ::
            (keywordNotes[i].0, ResolveNote(ctx, keywordNotes[i].1).value.value) in r.value.kwargs)
      && (NoDuplicates(KeysOf(keywordNotes)) ==> UniqueKeys(r.value.kwargs))
  {
    var ns := NotesOf(keywordNotes);
    assert forall i | 0 <= i < |ns| :: ResolveNote(ctx, ns[i]).Ok?;
    var args := ResolveAll(ctx, notes).value;
    var kws := ResolveAll(ctx, ns).value;
    assert FirstUnset(args) == |args|;
    ResolveNotesBuilds(ctx, notes, keywordNotes, args, kws);
    assert forall i | 0 <= i < |keywordNotes| :: ResolveNote(ctx, keywordNotes[i].1) == Ok(kws[i]);
    KeepProvidedOfKeywords(keywordNotes, kws);
  }

  /** With every note resolved and no positional `UNSET`, the arguments are
      built from the resolved values. */
  lemma ResolveNotesBuilds<V>(ctx: Context<V>, notes: seq<string>, keywordNotes: seq<(string, string)>, args: seq<Resolved<V>>, kws: seq<Resolved<V>>)
    requires ctx.Valid()
    requires ResolveAll(ctx, notes) == Ok(args) && ResolveAll(ctx, NotesOf(keywordNotes)) == Ok(kws)
    requires FirstUnset(args) == |args|
    ensures ResolveNotes(ctx, notes, keywordNotes) == Ok(Arguments(Values(args), KeepProvided(KeysOf(keywordNotes), kws)))
  {
  }

  /** The keyword arguments kept from the keyword notes and their values: each
      comes from some keyword note whose value is set, and each set value is
      kept under its keyword. */
  lemma KeepProvidedOfKeywords<V>(keywordNotes: seq<(string, string)>, vs: seq<Resolved<V>>)
    requires |vs| == |keywordNotes|
    ensures var kw := KeepProvided(KeysOf(keywordNotes), vs);
      && (forall j | 0 <= j < |kw| :: exists i | 0 <= i < |keywordNotes| :: keywordNotes[i].0 == kw[j].0 && vs[i] == Provided(kw[j].1))
      && (forall i | 0 <= i < |keywordNotes| && vs[i].Provided? :: (keywordNotes[i].0, vs[i].value) in kw)
  {
    var keys := KeysOf(keywordNotes);
    var kw := KeepProvided(keys, vs);
    forall j | 0 <= j < |kw|
      ensures exists i | 0 <= i < |keywordNotes| :: keywordNotes[i].0 == kw[j].0 && vs[i] == Provided(kw[j].1)
    {
      var i :| 0 <= i < |keys| && keys[i] == kw[j].0 && vs[i] == Provided(kw[j].1);
      assert keywordNotes[i].0 == kw[j].0;
    }
  }

  /** Failures to reach an accessor propagate before any `UNSET` check:
      positional notes first, then keyword notes. */
  lemma ResolveNotesPropagatesLookupErrors<V>(ctx: Context<V>, notes: seq<string>, keywordNotes: seq<(string, string)>)
    requires ctx.Valid()
    ensures ResolveAll(ctx, notes).Err? ==> ResolveNotes(ctx, notes, keywordNotes) == Err(ResolveAll(ctx, notes).error)
    ensures ResolveAll(ctx, notes).Ok? && ResolveAll(ctx, NotesOf(keywordNotes)).Err? ==>
      ResolveNotes(ctx, notes, keywordNotes) == Err(ResolveAll(ctx, NotesOf(keywordNotes)).error)
    ensures ResolveNotes(ctx, notes, keywordNotes).Err? && !ResolveNotes(ctx, notes, keywordNotes).error.UnsetError? ==>
      (exists i | 0 <= i < |notes| :: ResolveNote(ctx, notes[i]).Err?) ||
      (exists i | 0 <= i < |keywordNotes| :: ResolveNote(ctx, keywordNotes[i].1).Err?)
  {
    var ra := ResolveAll(ctx, notes);
    if ra.Err? {
      var k := FirstFailing(ctx, notes);
      assert ResolveNote(ctx, notes[k]).Err?;
    } else {
      var ns := NotesOf(keywordNotes);
      var rk := ResolveAll(ctx, ns);
      if rk.Err? {
        var k := FirstFailing(ctx, ns);
        assert ResolveNote(ctx, keywordNotes[k].1).Err?;
      }
    }
  }
}
